=== FILE: README.md ===
# noxkiwi/database — a Dafny model of the database core

This project models the core of the `noxkiwi/database` PHP library. That core is a thin session layer over PDO with four drivers: MySQL, PostgreSQL, MSSQL and SQLite. The model covers:

- **`Query::attach`**: a SQL fragment with its bound parameters. Attaching a `QueryAddon` appends the addon's SQL, padded with one space on each side, and merges the parameter arrays with PHP's `array_merge`. `array_merge` is modelled exactly on ordered key/value entries. Integer keys are renumbered and appended; string keys are overwritten in place.
- **`DatabaseObserver::update`**: the process-wide counters (select, insert, update, delete, write, read, query) and the query log. They are updated on every notification a database session sends.
- **The `Database` session**:
  - Construction: the extension check, the connection string, and the credential rule built on `empty()`.
  - `read`, `write` and `query`: the `lastQuery` field, the static `$queries` audit list, the notifications, and when the statement is replaced or an exception is raised.
  - The transaction guards and `getLastQuery`.
- **The SQLite override of `query`**:
  - A failure in prepare is swallowed.
  - An execute that returns `false` is escalated only when `(int)` of the connection's SQLSTATE is non-zero.
  - It never sets `lastQuery` and never sends a QUERY notification.
- **The driver connection strings**: a small connection-string reader serves as the partner. It shows that every string reads back as exactly the configuration values it was built from, when the database and host values contain no ';'. Configuration values are not escaped, so a ';' inside one adds fields of its own; two lemmas exhibit that.

PDO itself is an oracle. Whether the connection opens, what `prepare` and `execute` return, and which SQLSTATE is reported are inputs, as is the set of loaded PHP extensions. Static state shared by all sessions is one immutable `Globals` value that each step takes and returns. That state is the `$queries` list and the observer counters. A call that raises keeps the effects it made before raising, as it does in PHP.

Modules, one per file:

- `PhpValues` (`php_values.dfy`): PHP scalars, `empty()`, string conversion and the `(int)` cast.
- `PhpArrays` (`php_arrays.dfy`): `array_merge`.
- `Queries` (`queries.dfy`): `Query` and `QueryAddon`.
- `DatabaseObserver` (`observer.dfy`): the counters and the query log.
- `Drivers` (`drivers.dfy`): extensions and connection strings.
- `Database` (`database.dfy`): the session.
- `Runs` (`runs.dfy`): sequences of public calls.

Four behaviours of the code that are easy to miss, all modelled as written:

- **A missing configuration key** raises a PHP warning, reads as `null` and concatenates as `''`, so the connection string is still built (`backend/class/Database/MysqlDatabase.php:40`).
- **Credentials are dropped whenever `empty()` holds** for `user` or `pass`. Besides an absent key, that covers `''`, `'0'`, `null`, `false` and `0` (`backend/class/Database.php:77`).
- **SQLite escalates a failed execute only when `(int)` of the connection's SQLSTATE is non-zero.** So `"HY000"` is not escalated (`backend/class/Database/SqliteDatabase.php:73-74`).
- **SQLite's `query` never sets `lastQuery`.** It adds the query to the audit list only (`backend/class/Database/SqliteDatabase.php:48-87`).

## Model

| member | source | states |
|---|---|---|
| `PhpValues.EmptyExactly` | backend/class/Database.php:77 | `empty()` on a config entry holds exactly for an absent key, null, false, 0, '' and '0' |
| `PhpValues.IntCastRoundTrip` | backend/class/Database/SqliteDatabase.php:73 | the `(int)` cast reads back every integer from its decimal spelling |
| `PhpValues.IntCastZero` | backend/class/Database/SqliteDatabase.php:73-74 | a SQLSTATE casts to 0 (is `empty()`) exactly when the digit run it starts with is empty or all zeros |
| `PhpValues.IntCastLetterStart` | backend/class/Database/SqliteDatabase.php:73 | a code starting with a letter, such as the class "HY", casts to 0 |
| `PhpValues.IntCastDigits` | backend/class/Database/SqliteDatabase.php:73 | a code made only of digits casts to its decimal value |
| `PhpValues.SqlStateGenericCast` | backend/class/Database/SqliteDatabase.php:73-74 | the generic SQLSTATE "HY000" casts to 0, so it counts as no error |
| `PhpValues.SqlStateSuccessCast` | backend/class/Database/SqliteDatabase.php:73-74 | the success SQLSTATE "00000" casts to 0 |
| `PhpValues.SqlStateIntegrityCast` | backend/class/Database/SqliteDatabase.php:73-74 | "23000" casts to 23000 |
| `PhpValues.SqlStatePrefixCast` | backend/class/Database/SqliteDatabase.php:73 | "42S02" casts to its leading number 42 |
| `PhpArrays.ArrayMergeShape` | backend/class/Query.php:31 | `array_merge` returns a packed array: integer keys 0..n-1 in order, no key twice |
| `PhpArrays.ArrayMergeStringKeys` | backend/class/Query.php:31 | a string key is in the result iff it is in either input, and the second array's value wins |
| `PhpArrays.ArrayMergeIntValues` | backend/class/Query.php:31 | integer-keyed values are never lost: the first array's in order, then the second's |
| `PhpArrays.ArrayMergePositions` | backend/class/Query.php:31 | the first array's entries keep their places at the front: string keys in place (second array's value on a clash), integer keys renumbered by rank |
| `PhpArrays.ArrayMergeDisjoint` | backend/class/Query.php:31 | when no string key occurs in both arrays, the result is the first array followed by the second, in order, with integer keys renumbered 0, 1, 2, … across both |
| `PhpArrays.ArrayMergeLayout` | backend/class/Query.php:31 | for any two arrays: the first array's entries stay in place, each string key the second also binds taking the second's value, followed by the second array's integer-keyed entries and new string keys in its own order, with integer keys renumbered 0, 1, 2, … across the whole |
| `PhpArrays.ArrayMergeEmptyRight` | backend/class/Query.php:31 | merging in an empty array renumbers the integer keys (0, 1, 2, … in order) and keeps every string key and value in place, so a packed array comes back unchanged |
| `PhpArrays.ArrayMergeEmptyLeft` | backend/class/Query.php:31 | merging into an empty array only renumbers the integer keys |
| `Queries.Attach` | backend/class/Query.php:28-32 | the old SQL is a prefix; the addon's SQL follows between two single spaces; the data is packed with distinct keys and keeps every integer-keyed value of both sides in order |
| `Queries.AttachStringKeys` | backend/class/Query.php:31 | after attach, a named parameter takes the addon's value if the addon binds it, the query's otherwise |
| `Queries.AttachKeepsPositions` | backend/class/Query.php:31 | the query's parameters stay at the front of the merged data, in order |
| `Queries.AttachDisjoint` | backend/class/Query.php:31 | when the addon binds no name the query binds, its parameters follow the query's in the addon's order, with positional keys renumbered across both |
| `Queries.AttachLayout` | backend/class/Query.php:31 | the merged data in full: the query's parameters in place (the addon's value for a name both bind), then the addon's positional values and new names in the addon's order, positional keys renumbered across both |
| `Queries.AttachEmptyAddon` | backend/class/Query.php:28-32 | attaching an empty addon adds two spaces and leaves packed data unchanged |
| `Queries.AttachAllString` | backend/class/Query.php:19-30 | attaching s1 … sn to a fresh Query gives " s1  s2  …  sn " |
| `Queries.AttachAllData` | backend/class/Query.php:21-31 | attaching addons to a fresh Query: the last addon binding a name wins, all positional values are kept in order, the result is packed |
| `DatabaseObserver.Update` | backend/class/Observer/DatabaseObserver.php:78-110 | each counter grows by one exactly for its notification types (write for insert, update, delete and write); only QUERY appends the subject's last query; other subjects and unknown types change nothing |
| `DatabaseObserver.ReadIsIgnored` | backend/class/Observer/DatabaseObserver.php:83-109 | the READ type has no case and changes nothing |
| `DatabaseObserver.ReplayCounts` | backend/class/Observer/DatabaseObserver.php:78-110 | over any sequence of notifications each counter grows by the number that feed it and the log by exactly the queries the QUERY notifications carried |
| `DatabaseObserver.LoggedLength` | backend/class/Observer/DatabaseObserver.php:103-106 | the query log holds exactly one entry per QUERY notification from a database session |
| `DatabaseObserver.ReplayFromInitial` | backend/class/Observer/DatabaseObserver.php:59-110 | from the initial statics, readCount equals selectCount, the log is as long as queryCount, and writeCount is insert + update + delete + WRITE notifications |
| `Drivers.ServerConnectionStringReadsBack` | backend/class/Database/MysqlDatabase.php:38-41 | when database and host contain no ';', the MySQL (and the PostgreSQL and MSSQL) string reads back as the DRIVER prefix and exactly dbname, host (and charset=utf8 for MySQL only) |
| `Drivers.SqliteConnectionStringReadsBack` | backend/class/Database/SqliteDatabase.php:92-95 | the SQLite string reads back as prefix "sqlite" and the file path, whatever the path holds |
| `Drivers.ConnectionStringUsesOnlyItsKeys` | backend/class/Database/PostgresqlDatabase.php:39-42 | a connection string depends only on database and host (file for SQLite); user and pass never reach it |
| `Drivers.ServerConnectionStringInjective` | backend/class/Database/MssqlDatabase.php:39-42 | when database and host contain no ';', distinct database or host values give distinct server connection strings |
| `Drivers.MysqlCharsetSuffix` | backend/class/Database/MysqlDatabase.php:40 | the MySQL string ends in ";charset=utf8" for every configuration |
| `Drivers.CharsetOnlyForMysql` | backend/class/Database/PostgresqlDatabase.php:41 | the PostgreSQL and MSSQL strings are the DRIVER prefix, ':' and a body which, when database and host contain no ';', carries no charset field |
| `Drivers.SemicolonCollision` | backend/class/Database/PostgresqlDatabase.php:41 | values are not escaped: a database "a;host=b" with host "c" builds the same server string as database "a" with host "b;host=c" |
| `Drivers.CharsetInjection` | backend/class/Database/PostgresqlDatabase.php:41 | a database value "a;charset=v" makes a PostgreSQL or MSSQL string read back with a charset=v field between dbname and host |
| `Database.CredentialsFor` | backend/class/Database.php:75-82 | credentials go to PDO iff neither user nor pass is `empty()`; a non-empty value that is not a string is a TypeError under strict types |
| `Database.CredentialBoundary` | backend/class/Database.php:77 | an absent key, null, '' or '0' for user or pass means connecting without credentials |
| `Database.Construct` | backend/class/Database.php:54-82 | a missing extension raises that driver's MISSING_EXTENSION error before any connection attempt; a non-string credential is a TypeError with no connection attempt; otherwise PDO gets the driver's connection string, and config user and pass in that order unless either is `empty()`; a refused connection raises EXCEPTION_CONSTRUCT_CONNECTION_ERROR with the config; a new session has lastQuery '', no statement, one observer, and only MSSQL sets the driver name |
| `Database.ConstructedConnection` | backend/class/Database.php:75-82 | a constructed server session is connected to exactly the dbname and host (and charset for MySQL) of its configuration when those hold no ';', as config user and pass or as nobody when either is `empty()` |
| `Database.BaseQuery` | backend/class/Database.php:130-146 | the query becomes lastQuery, is appended to the audit list and logged once by QUERY; the call succeeds iff prepare yields a statement and execute succeeds, and only then is the statement replaced; a false execute raises EXCEPTION_QUERY_ERROR with the SQL, data and statement SQLSTATE; a PDOException from prepare or execute is let through unwrapped; a false prepare is a PHP Error (setFetchMode on false) |
| `Database.SqliteQuery` | backend/class/Database/SqliteDatabase.php:48-87 | the query is audited but lastQuery is unchanged; a prepare exception is swallowed with nothing else changed; a false prepare raises EXCEPTION_QUERY_ERROR with the connection SQLSTATE; a PDOException from execute is let through unwrapped; a false execute raises iff the cast SQLSTATE is non-zero, otherwise counts as success and stores the statement; on exactly the two success paths after a prepared statement, the bare `notify()` updates the counters once, with the unchanged lastQuery as subject |
| `Database.SqliteEscalationExamples` | backend/class/Database/SqliteDatabase.php:72-83 | a false execute with SQLSTATE "HY000" or "00000" is treated as success; "23000" is escalated |
| `Database.Read` | backend/class/Database.php:114-118 | a read is audited with its data; on server drivers it becomes lastQuery and counts one select, one read and one query; on SQLite, select and read, then the bare notification only on success; it raises exactly when the driver's query fails (`Succeeds`), with the exception `QueryFailure` gives for that PDO outcome, and only a success with a prepared statement replaces the statement |
| `Database.Write` | backend/class/Database.php:152-156 | a write sends the Query's string and data; on server drivers it becomes lastQuery and counts one write and one query; on SQLite, the write, then the bare notification only on success; it raises exactly when the driver's query fails (`Succeeds`), with the exception `QueryFailure` gives for that PDO outcome, and only a success with a prepared statement replaces the statement |
| `Database.BeginTransaction` | backend/class/Database.php:161-167 | afterwards a transaction is open; a native begin is issued only when none was open |
| `Database.Commit` | backend/class/Database.php:172-178 | afterwards no transaction is open; a native commit is issued only when one was open |
| `Database.Rollback` | backend/class/Database.php:183-189 | afterwards no transaction is open; a native rollback is issued only when one was open |
| `Database.BeginIdempotent` | backend/class/Database.php:161-167 | beginning twice is beginning once: at most one native begin |
| `Database.EndIdempotent` | backend/class/Database.php:172-189 | committing or rolling back a second time, in either order, changes nothing |
| `Database.BeginThenEnd` | backend/class/Database.php:161-189 | outside a transaction, begin then commit (or rollback) restores the state with exactly the two native calls recorded |
| `Runs.RunAuditList` | backend/class/Database.php:136 | after any run of calls, on any driver and whatever PDO does, the audit list gained exactly one `{string, data}` record per read or write, in order |
| `Runs.RunKeepsSessionShape` | backend/class/Database.php:114-189 | no public call changes the driver, its name, the connection request or the observers |
| `Runs.RunLastQuery` | backend/class/Database.php:195-198 | `getLastQuery()` returns the SQL of the latest read or write on server drivers (raised or not) and never changes on SQLite |
| `Runs.RunMetricsBase` | backend/class/Database.php:114-156 | on a server driver a run counts one select and read per read, one write per write, and logs every SQL sent, in order |
| `Runs.RunMetricsSqlite` | backend/class/Database/SqliteDatabase.php:48-87 | on SQLite reads and writes are counted but the query counter and log never move |
| `Runs.RunKeepsConsistent` | backend/class/Observer/DatabaseObserver.php:78-110 | any run keeps readCount equal to selectCount and the log as long as queryCount, and never decreases a counter |
| `Runs.FreshSessionLastQuery` | backend/class/Database.php:57 | a fresh session reports '' until the first read or write, then the latest SQL on server drivers; always '' on SQLite |

## Left out

- PDO itself is not modelled: connecting, preparing, executing and error reporting are oracle inputs (`connects`, `Oracle`).
- `getResult()` and `lastInsertId()` are not modelled. Each only passes a PDO call through. Calling `getResult()` before any statement was stored reads an uninitialised typed property, which is a PHP Error.
- Logging (`logDebug`), `JsonHelper::encode` and `ErrorHandler::handleException` are not modelled, because they are side channels that do not change the state.
- The singleton lifecycle (`Singleton`) is not modelled, and `ObservableTrait` is reduced to a count of attached observers. Those libraries are not part of this model.
- `Database.BeginTransaction`, `Database.Commit`, `Database.Rollback`: PDO's `inTransaction()` (`backend/class/Database.php:163`, `174`, `185`) is modelled as a flag that only these three calls change. A "BEGIN" or "COMMIT" sent through `read` or `write`, MySQL's implicit commit after DDL, and a transaction the server ends on its own (PDO asks the server for pgsql) do not move it. The idempotence lemmas hold for sessions whose transactions go through these three calls only.
- A failure of the native begin, commit or rollback (a PDOException, or a `false` return) is not modelled. Only the guard and the native call are recorded.
- `setFetchMode(PDO::FETCH_ASSOC)` and `closeCursor()` on a valid statement are taken to succeed. On a `false` from prepare, the base driver's `setFetchMode` call is modelled as a PHP Error.
- Float, array and object values are left out, both as configuration values and as bound-parameter values (`Queries.Params` and the audit records): `PhpValue` has null, bool, int and string only.
- The `(int)` cast (`PhpValues.IntCast`) does not model exponent notation or saturation on 64-bit overflow, so `(int)"2E001"` is 2 in the model and 20 in PHP. The only use of the cast is the zero/non-zero test on a SQLSTATE, which has five digits or upper-case letters and no '-'. An exponent in such a code is therefore non-negative, and the test agrees unless the exponent overflows to infinity, as in "1E309". No standard SQLSTATE has that form.
- The PHP warning a missing configuration key raises is left out. The value reads as `''`, as it does after the warning.
- `Runs.RunMetricsSqlite`: the type of SQLite's bare `notify()` comes from `ObservableTrait`, which is not part of this model. It is a parameter. `Database.SqliteQuery`, `Database.Read` and `Database.Write` state its effect for any type; the run-level promise of `Runs.RunMetricsSqlite` assumes it is none of the counted types.
- `QueryAddon` is a plain datatype (a string and its data) with no behaviour of its own.
- The doc comments of `DatabaseInterface` promise a `DatabaseException` from `beginTransaction` when a transaction was already started (`backend/class/Interfaces/DatabaseInterface.php:50`) and from `commit` when none was (`backend/class/Interfaces/DatabaseInterface.php:57`). The code does not raise there: the guards at `backend/class/Database.php:163-165` and `174-176` make both calls no-ops. The model follows the code, so `Database.BeginTransaction` and `Database.Commit` never raise, and `Database.BeginIdempotent` and `Database.EndIdempotent` state the no-op.
- The doc comments of `Hook` and the `DatabaseException` class carry no behaviour beyond what is modelled.
- Concurrency is left out: the model is single-threaded, as the library assumes one request per process.

=== FILE: database.dfy ===
/** The database session: the bookkeeping the abstract Database class and its
    SQLite override do around PDO.

    PDO is not modelled. Whatever it decides (whether the connection opens, what
    prepare and execute return, which SQLSTATE it reports) is an input: the
    `connects` flag of construction and an `Oracle` per query. The static state
    shared by all sessions, namely the `$queries` audit list and the observer's
    counters, is one `Globals` record that every step takes and returns. */
module Database {
  import opened PhpValues
  import opened PhpArrays
  import opened Queries
  import opened Drivers
  import Obs = DatabaseObserver

  const EXCEPTION_CONSTRUCT_CONNECTION_ERROR: string := "EXCEPTION_CONSTRUCT_CONNECTION_ERROR"
  const EXCEPTION_QUERY_ERROR: string := "EXCEPTION_QUERY_ERROR"

  /** The arguments of `new PDO(...)`: the connection string and, optionally, user and password. */
  datatype ConnectRequest = ConnectRequest(dsn: string, credentials: Option<(string, string)>)

  datatype TxCall = NativeBegin | NativeCommit | NativeRollback

  /** The PDO connection: what it was opened with, its `inTransaction()` flag, and
      the transaction calls this layer made on it. */
  datatype Connection = Connection(request: ConnectRequest, inTransaction: bool, txCalls: seq<TxCall>)

  /** An opaque PDOStatement handle. */
  datatype Statement = Statement(id: nat)

  /** One Database instance. `driverName` is the `$driver` field (only MSSQL sets
      it); `observers` is the number of DatabaseObserver instances attached. */
  datatype Session = Session(
    driver: Driver,
    driverName: Option<string>,
    lastQuery: string,
    connection: Connection,
    statement: Option<Statement>,
    observers: nat)

  /** One entry of the static `$queries` list: `compact('string', 'data')`. */
  datatype QueryRecord = QueryRecord(str: string, data: Option<Params>)

  /** The process-wide static state. */
  datatype Globals = Globals(queries: seq<QueryRecord>, metrics: Obs.Metrics)

  const InitialGlobals: Globals := Globals([], Obs.Initial)

  /** The context an exception carries. */
  datatype ErrorInfo =
    | ConfigInfo(config: Config)
    | QueryInfo(query: string, data: Option<Params>, sqlState: string)

  datatype Exception =
    | DatabaseException(message: string, info: ErrorInfo)
    | SystemComponentException(message: string)
    /** A PDOException that PDO threw and this layer let through. */
    | PdoException
    /** A PHP Error (not an Exception): a TypeError, or a method called on `false`. */
    | EngineError(reason: string)

  /** What `$connection->prepare($sql)` does. */
  datatype PrepareOutcome =
    | Prepared(stmt: Statement)
    | PrepareThrows
    | PrepareReturnsFalse(connectionSqlState: string)

  /** What `$statement->execute($data)` does. On `false` the statement and the
      connection each report a SQLSTATE (`errorInfo()[0]`). */
  datatype ExecuteOutcome =
    | Executes
    | ExecuteReturnsFalse(statementSqlState: string, connectionSqlState: string)
    | ExecuteThrows

  datatype Oracle = Oracle(prepare: PrepareOutcome, execute: ExecuteOutcome)

  /** The state after a call and the exception it raised, if any. Effects made
      before the raise are kept, as they are in PHP. */
  datatype Step = Step(session: Session, globals: Globals, raised: Option<Exception>)

  // ---------------------------------------------------------------------------
  // Construction

  function ConfigValue(config: Config, key: string): Option<PhpValue> {
    if key in config then Some(config[key]) else None
  }

  datatype CredentialRule = NoCredentials | WithCredentials(user: string, pass: string) | CredentialTypeError

  /** `getPdoConnection`: credentials are passed only when neither user nor pass is
      `empty()`. Under strict types, a non-empty value that is not a string makes
      the PDO constructor call a TypeError. */
  function CredentialsFor(config: Config): (r: CredentialRule)
    ensures r.NoCredentials? <==> Empty(ConfigValue(config, "user")) || Empty(ConfigValue(config, "pass"))
    ensures r.WithCredentials? <==>
      && ConfigValue(config, "user").Some? && ConfigValue(config, "user").value.Str?
      && ConfigValue(config, "pass").Some? && ConfigValue(config, "pass").value.Str?
      && !Empty(ConfigValue(config, "user")) && !Empty(ConfigValue(config, "pass"))
    ensures r.WithCredentials? ==> r.user == config["user"].s && r.pass == config["pass"].s
  {
    var user := ConfigValue(config, "user");
    var pass := ConfigValue(config, "pass");
    if Empty(user) || Empty(pass) then NoCredentials
    else if user.value.Str? && pass.value.Str? then WithCredentials(user.value.s, pass.value.s)
    else CredentialTypeError
  }

  /** The exact boundary of the credential rule: '' and '0' count as missing. */
  lemma CredentialBoundary(config: Config)
    ensures "user" !in config ==> CredentialsFor(config) == NoCredentials
    ensures "pass" !in config ==> CredentialsFor(config) == NoCredentials
    ensures ("user" in config && config["user"] in {Null, Str(""), Str("0")}) ==> CredentialsFor(config) == NoCredentials
    ensures ("pass" in config && config["pass"] in {Null, Str(""), Str("0")}) ==> CredentialsFor(config) == NoCredentials
  {
  }

  datatype Created = Created(session: Session) | Failed(exception: Exception)

  /** The outcome of constructing a driver, and the connection it attempted (if any). */
  datatype Construction = Construction(attempt: Option<ConnectRequest>, result: Created)

  /** A driver's constructor: the extension check, then (MSSQL only) setting
      `$driver`, then the parent constructor, which sets `lastQuery` to '', opens
      the connection and attaches one observer. `connects` is whether PDO opens
      the connection it is asked for. */
  function Construct(d: Driver, config: Config, loaded: set<string>, connects: bool): (c: Construction)
    ensures RequiredExtension(d) !in loaded ==>
      c == Construction(None, Failed(SystemComponentException(MissingExtensionMessage(d))))
    ensures c.attempt.Some? <==> RequiredExtension(d) in loaded && !CredentialsFor(config).CredentialTypeError?
    ensures c.attempt.Some? ==> c.attempt.value.dsn == ConnectionString(d, config)
    ensures c.attempt.Some? ==>
      (c.attempt.value.credentials.Some? <==> CredentialsFor(config).WithCredentials?)
    ensures c.attempt.Some? && CredentialsFor(config).WithCredentials? ==>
      c.attempt.value.credentials == Some((CredentialsFor(config).user, CredentialsFor(config).pass))
    ensures RequiredExtension(d) in loaded && CredentialsFor(config).CredentialTypeError? ==>
      c.result == Failed(EngineError("TypeError"))
    ensures c.attempt.Some? && !connects ==>
      c.result == Failed(DatabaseException(EXCEPTION_CONSTRUCT_CONNECTION_ERROR, ConfigInfo(config)))
    ensures c.result.Created? <==> c.attempt.Some? && connects
    ensures c.result.Created? ==>
      var s := c.result.session;
      && s.driver == d
      && s.lastQuery == ""
      && s.observers == 1
      && s.statement == None
      && s.connection == Connection(c.attempt.value, false, [])
      && (s.driverName.Some? <==> d == MsSql)
      && (d == MsSql ==> s.driverName == Some(MSSQL_DRIVER))
  {
    if RequiredExtension(d) !in loaded then
      Construction(None, Failed(SystemComponentException(MissingExtensionMessage(d))))
    else
      var driverName := if d == MsSql then Some("mssql") else None;
      var dsn := ConnectionString(d, config);
      match CredentialsFor(config)
      case CredentialTypeError =>
        Construction(None, Failed(EngineError("TypeError")))
      case NoCredentials =>
        var request := ConnectRequest(dsn, None);
        if !connects then
          Construction(Some(request), Failed(DatabaseException(EXCEPTION_CONSTRUCT_CONNECTION_ERROR, ConfigInfo(config))))
        else
          Construction(Some(request), Created(Session(d, driverName, "", Connection(request, false, []), None, 1)))
      case WithCredentials(user, pass) =>
        var request := ConnectRequest(dsn, Some((user, pass)));
        if !connects then
          Construction(Some(request), Failed(DatabaseException(EXCEPTION_CONSTRUCT_CONNECTION_ERROR, ConfigInfo(config))))
        else
          Construction(Some(request), Created(Session(d, driverName, "", Connection(request, false, []), None, 1)))
  }

  /** A constructed server session is connected to the database and host its
      configuration names (read back from the connection string, when neither
      value holds ';'), as the configuration's user and pass, or as nobody when
      either of them is `empty()`. */
  lemma ConstructedConnection(d: Driver, config: Config, loaded: set<string>, connects: bool)
    requires d != Sqlite
    requires Free(ConfigString(config, "database"), ';') && Free(ConfigString(config, "host"), ';')
    requires Construct(d, config, loaded, connects).result.Created?
    ensures var req := Construct(d, config, loaded, connects).result.session.connection.request;
      && ParseDsn(req.dsn) == Some(Dsn(DriverPrefix(d), req.dsn[|DriverPrefix(d)| + 1..]))
      && Fields(req.dsn[|DriverPrefix(d)| + 1..]) == ServerFields(d, config)
      && (req.credentials.None? <==> Empty(ConfigValue(config, "user")) || Empty(ConfigValue(config, "pass")))
      && (req.credentials.Some? ==> req.credentials == Some((config["user"].s, config["pass"].s)))
  {
    ServerConnectionStringReadsBack(d, config);
  }

  // ---------------------------------------------------------------------------
  // Notifications

  function UpdateTimes(m: Obs.Metrics, subject: Obs.Subject, t: string, n: nat): Obs.Metrics
    decreases n
  {
    if n == 0 then m else Obs.Update(UpdateTimes(m, subject, t, n - 1), subject, t)
  }

  /** `$this->notify($t)`: every attached observer updates the shared counters,
      with this session (and its current last query) as the subject. */
  function Notify(s: Session, g: Globals, t: string): (r: Globals)
    ensures r.queries == g.queries
    ensures s.observers == 1 ==> r.metrics == Obs.Update(g.metrics, Obs.DatabaseSession(s.lastQuery), t)
  {
    g.(metrics := UpdateTimes(g.metrics, Obs.DatabaseSession(s.lastQuery), t, s.observers))
  }

  lemma {:induction false} UpdateTimesKeepsConsistent(m: Obs.Metrics, subject: Obs.Subject, t: string, n: nat)
    requires Obs.Consistent(m)
    ensures Obs.Consistent(UpdateTimes(m, subject, t, n)) && Obs.Grows(m, UpdateTimes(m, subject, t, n))
    decreases n
  {
    if n > 0 {
      UpdateTimesKeepsConsistent(m, subject, t, n - 1);
    }
  }

  lemma {:induction false} UpdateTimesIgnored(m: Obs.Metrics, subject: Obs.Subject, t: string, n: nat)
    requires t !in Obs.CountedTypes
    ensures UpdateTimes(m, subject, t, n) == m
    decreases n
  {
    if n > 0 {
      UpdateTimesIgnored(m, subject, t, n - 1);
    }
  }

  // ---------------------------------------------------------------------------
  // query()

  /** `Database::query`: record the query as the last one and in the audit list,
      notify QUERY, then prepare and execute. Only a successful execute replaces
      the statement; a `false` from execute raises EXCEPTION_QUERY_ERROR. */
  function BaseQuery(s: Session, g: Globals, sql: string, data: Option<Params>, o: Oracle): (r: Step)
    ensures r.session.lastQuery == sql
    ensures r.globals.queries == g.queries + [QueryRecord(sql, data)]
    ensures s.observers == 1 ==>
      r.globals.metrics == g.metrics.(queryCount := g.metrics.queryCount + 1,
                                      queryList := g.metrics.queryList + [sql])
    ensures r.raised.None? <==> o.prepare.Prepared? && o.execute.Executes?
    ensures r.session == s.(lastQuery := sql,
                            statement := if r.raised.None? then Some(o.prepare.stmt) else s.statement)
    ensures o.prepare.Prepared? && o.execute.ExecuteReturnsFalse? ==>
      r.raised == Some(DatabaseException(EXCEPTION_QUERY_ERROR, QueryInfo(sql, data, o.execute.statementSqlState)))
    ensures o.prepare.PrepareThrows? || (o.prepare.Prepared? && o.execute.ExecuteThrows?) ==>
      r.raised == Some(PdoException)
    ensures o.prepare.PrepareReturnsFalse? ==> r.raised.Some? && r.raised.value.EngineError?
  {
    var s1 := s.(lastQuery := sql);
    var g1 := g.(queries := g.queries + [QueryRecord(sql, data)]);
    var g2 := Notify(s1, g1, Obs.QUERY);
    match o.prepare
    case PrepareThrows => Step(s1, g2, Some(PdoException))
    case PrepareReturnsFalse(_) => Step(s1, g2, Some(EngineError("setFetchMode() called on false")))
    case Prepared(stmt) =>
      match o.execute
      case Executes => Step(s1.(statement := Some(stmt)), g2, None)
      case ExecuteReturnsFalse(stmtState, _) =>
        Step(s1, g2, Some(DatabaseException(EXCEPTION_QUERY_ERROR, QueryInfo(sql, data, stmtState))))
      case ExecuteThrows => Step(s1, g2, Some(PdoException))
  }

  /** Whether the SQLite override escalates an execute that returned `false`:
      only when `(int)` of the connection's SQLSTATE is non-zero. */
  predicate SqliteEscalates(connectionSqlState: string) {
    IntCast(connectionSqlState) != 0
  }

  /** `SqliteDatabase::query`: record the query in the audit list (but not as the
      last query, and without a QUERY notification), then prepare and execute.
      A PDOException from prepare is swallowed; a `false` from execute is
      escalated only when `SqliteEscalates`; on success the statement is stored
      and a bare `notify()` is sent, whose type `defaultType` is left open. */
  function SqliteQuery(s: Session, g: Globals, sql: string, data: Option<Params>, o: Oracle, defaultType: string): (r: Step)
    ensures r.globals.queries == g.queries + [QueryRecord(sql, data)]
    ensures r.session.lastQuery == s.lastQuery
    ensures o.prepare.PrepareThrows? ==> r == Step(s, g.(queries := r.globals.queries), None)
    ensures o.prepare.PrepareReturnsFalse? ==>
      r.raised == Some(DatabaseException(EXCEPTION_QUERY_ERROR, QueryInfo(sql, data, o.prepare.connectionSqlState)))
    ensures r.raised.None? <==>
      || o.prepare.PrepareThrows?
      || (o.prepare.Prepared? && (o.execute.Executes?
            || (o.execute.ExecuteReturnsFalse? && !SqliteEscalates(o.execute.connectionSqlState))))
    ensures o.prepare.Prepared? && o.execute.ExecuteReturnsFalse? && SqliteEscalates(o.execute.connectionSqlState) ==>
      r.raised == Some(DatabaseException(EXCEPTION_QUERY_ERROR, QueryInfo(sql, data, o.execute.connectionSqlState)))
    ensures o.prepare.Prepared? && o.execute.ExecuteThrows? ==> r.raised == Some(PdoException)
    ensures r.session == s.(statement := if r.raised.None? && o.prepare.Prepared? then Some(o.prepare.stmt) else s.statement)
    ensures s.observers == 1 ==>
      r.globals.metrics == if r.raised.None? && o.prepare.Prepared?
                           then Obs.Update(g.metrics, Obs.DatabaseSession(s.lastQuery), defaultType)
                           else g.metrics
    ensures defaultType !in Obs.CountedTypes ==> r.globals.metrics == g.metrics
  {
    var g1 := g.(queries := g.queries + [QueryRecord(sql, data)]);
    match o.prepare
    case PrepareThrows => Step(s, g1, None)
    case PrepareReturnsFalse(connState) =>
      Step(s, g1, Some(DatabaseException(EXCEPTION_QUERY_ERROR, QueryInfo(sql, data, connState))))
    case Prepared(stmt) =>
      var stored := s.(statement := Some(stmt));
      NotifyIgnoresUncounted(stored, g1, defaultType);
      match o.execute
      case Executes => Step(stored, Notify(stored, g1, defaultType), None)
      case ExecuteReturnsFalse(_, connState) =>
        if SqliteEscalates(connState) then
          Step(s, g1, Some(DatabaseException(EXCEPTION_QUERY_ERROR, QueryInfo(sql, data, connState))))
        else
          Step(stored, Notify(stored, g1, defaultType), None)
      case ExecuteThrows => Step(s, g1, Some(PdoException))
  }

  /** A notification of a type the observer has no case for changes nothing. */
  lemma NotifyIgnoresUncounted(s: Session, g: Globals, t: string)
    ensures t !in Obs.CountedTypes ==> Notify(s, g, t) == g
  {
    if t !in Obs.CountedTypes {
      UpdateTimesIgnored(g.metrics, Obs.DatabaseSession(s.lastQuery), t, s.observers);
    }
  }

  /** The query() of the session's own driver. */
  function DriverQuery(s: Session, g: Globals, sql: string, data: Option<Params>, o: Oracle, defaultType: string): Step {
    if s.driver == Sqlite then SqliteQuery(s, g, sql, data, o, defaultType) else BaseQuery(s, g, sql, data, o)
  }

  /** The SQLSTATE codes SQLite commonly reports after a failed execute: the
      generic "HY000" and "00000" are treated as success, "23000" is escalated. */
  lemma SqliteEscalationExamples()
    ensures !SqliteEscalates("HY000") && !SqliteEscalates("00000") && SqliteEscalates("23000")
  {
    SqlStateGenericCast();
    SqlStateSuccessCast();
    SqlStateIntegrityCast();
  }

  // ---------------------------------------------------------------------------
  // What a query raises

  /** Whether a query on driver `d` completes without raising, given what PDO does. */
  predicate Succeeds(d: Driver, o: Oracle) {
    if d == Sqlite then
      || o.prepare.PrepareThrows?
      || (o.prepare.Prepared? && (o.execute.Executes?
            || (o.execute.ExecuteReturnsFalse? && !SqliteEscalates(o.execute.connectionSqlState))))
    else o.prepare.Prepared? && o.execute.Executes?
  }

  /** The exception a query on driver `d` raises, per PDO outcome: a PDOException
      passes through (except one from SQLite's prepare, which is swallowed), a
      `false` execute becomes EXCEPTION_QUERY_ERROR with the statement's SQLSTATE
      on server drivers and the connection's on SQLite, and a `false` prepare is a
      PHP Error on server drivers and EXCEPTION_QUERY_ERROR on SQLite. */
  function QueryFailure(d: Driver, sql: string, data: Option<Params>, o: Oracle): Option<Exception> {
    match o.prepare
    case PrepareThrows => if d == Sqlite then None else Some(PdoException)
    case PrepareReturnsFalse(connState) =>
      if d == Sqlite then Some(DatabaseException(EXCEPTION_QUERY_ERROR, QueryInfo(sql, data, connState)))
      else Some(EngineError("setFetchMode() called on false"))
    case Prepared(_) =>
      match o.execute
      case Executes => None
      case ExecuteThrows => Some(PdoException)
      case ExecuteReturnsFalse(stmtState, connState) =>
        if d != Sqlite then Some(DatabaseException(EXCEPTION_QUERY_ERROR, QueryInfo(sql, data, stmtState)))
        else if SqliteEscalates(connState) then Some(DatabaseException(EXCEPTION_QUERY_ERROR, QueryInfo(sql, data, connState)))
        else None
  }

  /** The failure table and the success condition agree on every driver and outcome. */
  lemma FailureExactlyWhenNotSucceeds(d: Driver, sql: string, data: Option<Params>, o: Oracle)
    ensures QueryFailure(d, sql, data, o).None? <==> Succeeds(d, o)
  {
  }

  // ---------------------------------------------------------------------------
  // The public operations

  /** `read($sql, $data)`: notify SELECT, then query. */
  function Read(s: Session, g: Globals, sql: string, data: Option<Params>, o: Oracle, defaultType: string): (r: Step)
    ensures r.globals.queries == g.queries + [QueryRecord(sql, data)]
    ensures r.session.lastQuery == if s.driver == Sqlite then s.lastQuery else sql
    ensures s.observers == 1 && s.driver != Sqlite ==>
      r.globals.metrics == g.metrics.(selectCount := g.metrics.selectCount + 1,
                                      readCount := g.metrics.readCount + 1,
                                      queryCount := g.metrics.queryCount + 1,
                                      queryList := g.metrics.queryList + [sql])
    ensures s.observers == 1 && s.driver == Sqlite ==>
      var m := g.metrics.(selectCount := g.metrics.selectCount + 1, readCount := g.metrics.readCount + 1);
      r.globals.metrics == if r.raised.None? && o.prepare.Prepared?
                           then Obs.Update(m, Obs.DatabaseSession(s.lastQuery), defaultType)
                           else m
    ensures s.observers == 1 && s.driver == Sqlite && defaultType !in Obs.CountedTypes ==>
      r.globals.metrics == g.metrics.(selectCount := g.metrics.selectCount + 1,
                                      readCount := g.metrics.readCount + 1)
    ensures Succeeds(s.driver, o) <==> r.raised.None?
    ensures r.raised == QueryFailure(s.driver, sql, data, o)
    ensures r.session.statement == if r.raised.None? && o.prepare.Prepared? then Some(o.prepare.stmt) else s.statement
  {
    DriverQuery(s, Notify(s, g, Obs.SELECT), sql, data, o, defaultType)
  }

  /** `write($query)`: notify WRITE, then query the Query's string and data. */
  function Write(s: Session, g: Globals, q: Query, o: Oracle, defaultType: string): (r: Step)
    ensures r.globals.queries == g.queries + [QueryRecord(q.str, Some(q.data))]
    ensures r.session.lastQuery == if s.driver == Sqlite then s.lastQuery else q.str
    ensures s.observers == 1 && s.driver != Sqlite ==>
      r.globals.metrics == g.metrics.(writeCount := g.metrics.writeCount + 1,
                                      queryCount := g.metrics.queryCount + 1,
                                      queryList := g.metrics.queryList + [q.str])
    ensures s.observers == 1 && s.driver == Sqlite ==>
      var m := g.metrics.(writeCount := g.metrics.writeCount + 1);
      r.globals.metrics == if r.raised.None? && o.prepare.Prepared?
                           then Obs.Update(m, Obs.DatabaseSession(s.lastQuery), defaultType)
                           else m
    ensures s.observers == 1 && s.driver == Sqlite && defaultType !in Obs.CountedTypes ==>
      r.globals.metrics == g.metrics.(writeCount := g.metrics.writeCount + 1)
    ensures Succeeds(s.driver, o) <==> r.raised.None?
    ensures r.raised == QueryFailure(s.driver, q.str, Some(q.data), o)
    ensures r.session.statement == if r.raised.None? && o.prepare.Prepared? then Some(o.prepare.stmt) else s.statement
  {
    DriverQuery(s, Notify(s, g, Obs.WRITE), q.str, Some(q.data), o, defaultType)
  }

  /** `getLastQuery()`. */
  function GetLastQuery(s: Session): string {
    s.lastQuery
  }

  // ---------------------------------------------------------------------------
  // Transactions

  /** `beginTransaction()`: a no-op inside a transaction, otherwise a native begin. */
  function BeginTransaction(s: Session): (r: Session)
    ensures r.connection.inTransaction
    ensures s.connection.inTransaction ==> r == s
    ensures !s.connection.inTransaction ==>
      r == s.(connection := s.connection.(inTransaction := true, txCalls := s.connection.txCalls + [NativeBegin]))
  {
    if s.connection.inTransaction then s
    else s.(connection := s.connection.(inTransaction := true, txCalls := s.connection.txCalls + [NativeBegin]))
  }

  /** `commit()`: a no-op outside a transaction, otherwise a native commit. */
  function Commit(s: Session): (r: Session)
    ensures !r.connection.inTransaction
    ensures !s.connection.inTransaction ==> r == s
    ensures s.connection.inTransaction ==>
      r == s.(connection := s.connection.(inTransaction := false, txCalls := s.connection.txCalls + [NativeCommit]))
  {
    if !s.connection.inTransaction then s
    else s.(connection := s.connection.(inTransaction := false, txCalls := s.connection.txCalls + [NativeCommit]))
  }

  /** `rollback()`: a no-op outside a transaction, otherwise a native rollback. */
  function Rollback(s: Session): (r: Session)
    ensures !r.connection.inTransaction
    ensures !s.connection.inTransaction ==> r == s
    ensures s.connection.inTransaction ==>
      r == s.(connection := s.connection.(inTransaction := false, txCalls := s.connection.txCalls + [NativeRollback]))
  {
    if !s.connection.inTransaction then s
    else s.(connection := s.connection.(inTransaction := false, txCalls := s.connection.txCalls + [NativeRollback]))
  }

  /** Beginning twice is beginning once: no second native begin is issued. */
  lemma BeginIdempotent(s: Session)
    ensures BeginTransaction(BeginTransaction(s)) == BeginTransaction(s)
    ensures |BeginTransaction(s).connection.txCalls| <= |s.connection.txCalls| + 1
  {
  }

  /** Committing or rolling back twice is doing it once. */
  lemma EndIdempotent(s: Session)
    ensures Commit(Commit(s)) == Commit(s)
    ensures Rollback(Rollback(s)) == Rollback(s)
    ensures Rollback(Commit(s)) == Commit(s)
    ensures Commit(Rollback(s)) == Rollback(s)
  {
  }

  /** Outside a transaction, begin then commit (or rollback) returns to the same
      state with exactly the two native calls recorded. */
  lemma BeginThenEnd(s: Session)
    requires !s.connection.inTransaction
    ensures Commit(BeginTransaction(s)) ==
      s.(connection := s.connection.(txCalls := s.connection.txCalls + [NativeBegin, NativeCommit]))
    ensures Rollback(BeginTransaction(s)) ==
      s.(connection := s.connection.(txCalls := s.connection.txCalls + [NativeBegin, NativeRollback]))
  {
  }
}

=== FILE: drivers.dfy ===
/** What distinguishes the four drivers before a session exists: the PHP
    extension each one needs, the error it raises when that extension is
    missing, and the PDO connection string it builds from the configuration.
    A small reader of connection strings is the partner that shows each string
    carries exactly the configuration values it is built from. */
module Drivers {
  import opened PhpValues

  /** The configuration array: string keys to scalars. */
  type Config = map<string, PhpValue>

  datatype Driver = MySql | PostgreSql | MsSql | Sqlite

  /** The DRIVER class constants. */
  const MYSQL_DRIVER: string := "mysql"
  const PGSQL_DRIVER: string := "pgsql"
  const MSSQL_DRIVER: string := "mssql"

  /** `$config[$key]` read into a string: an absent key reads as null, which concatenates as ''. */
  function ConfigString(config: Config, key: string): string {
    ToPhpString(if key in config then config[key] else Null)
  }

  /** The extension each driver checks with `extension_loaded`. */
  function RequiredExtension(d: Driver): string {
    match d
    case MySql => "pdo_mysql"
    case PostgreSql => "pdo_pgsql"
    case MsSql => "pdo_sqlsrv"
    case Sqlite => "pdo_sqlite"
  }

  /** The message of the SystemComponentException raised when that extension is missing. */
  function MissingExtensionMessage(d: Driver): string {
    match d
    case MySql => "MISSING_EXTENSION_PDO_MYSQL"
    case PostgreSql => "MISSING_EXTENSION_PDO_PGSQL"
    case MsSql => "MISSING_EXTENSION_PDO_MSSQL"
    case Sqlite => "MISSING_EXTENSION_PDO_SQLITE"
  }

  /** `getConnectionString($options)` of each driver. */
  function ConnectionString(d: Driver, config: Config): string {
    match d
    case MySql =>
      MYSQL_DRIVER + ":dbname=" + ConfigString(config, "database") + ";host=" + ConfigString(config, "host")
      + ";charset=utf8"
    case PostgreSql =>
      PGSQL_DRIVER + ":dbname=" + ConfigString(config, "database") + ";host=" + ConfigString(config, "host")
    case MsSql =>
      MSSQL_DRIVER + ":dbname=" + ConfigString(config, "database") + ";host=" + ConfigString(config, "host")
    case Sqlite =>
      "sqlite:" + ConfigString(config, "file")
  }

  /** The configuration keys a driver's connection string reads. */
  function DsnKeys(d: Driver): set<string> {
    if d == Sqlite then {"file"} else {"database", "host"}
  }

  // ---------------------------------------------------------------------------
  // Reading a connection string back

  /** The first position of `c` in `s`. */
  function IndexOfChar(s: string, c: char): (r: Option<nat>)
    ensures r.Some? ==> r.value < |s| && s[r.value] == c && forall j :: 0 <= j < r.value ==> s[j] != c
    ensures r.None? ==> forall j :: 0 <= j < |s| ==> s[j] != c
  {
    if s == [] then None
    else if s[0] == c then Some(0)
    else match IndexOfChar(s[1..], c)
      case None => None
      case Some(i) => Some(i + 1)
  }

  /** `explode(c, s)`: the pieces of `s` between occurrences of `c`. */
  function Split(s: string, c: char): (r: seq<string>)
    ensures |r| > 0
    decreases |s|
  {
    match IndexOfChar(s, c)
    case None => [s]
    case Some(i) => [s[..i]] + Split(s[i + 1..], c)
  }

  /** A connection string cut at its first ':' into the driver prefix and the rest. */
  datatype Dsn = Dsn(prefix: string, body: string)

  function ParseDsn(s: string): Option<Dsn> {
    match IndexOfChar(s, ':')
    case None => None
    case Some(i) => Some(Dsn(s[..i], s[i + 1..]))
  }

  /** A `key=value` piece cut at its first '='; a piece without '=' is a key with an empty value. */
  function Field(piece: string): (string, string) {
    match IndexOfChar(piece, '=')
    case None => (piece, "")
    case Some(i) => (piece[..i], piece[i + 1..])
  }

  function FieldsOf(pieces: seq<string>): seq<(string, string)>
    decreases |pieces|
  {
    if pieces == [] then [] else [Field(pieces[0])] + FieldsOf(pieces[1..])
  }

  /** The `key=value` pairs of a connection string body, separated by ';'. */
  function Fields(body: string): seq<(string, string)> {
    FieldsOf(Split(body, ';'))
  }

  /** `c` does not occur in `s`. */
  predicate Free(s: string, c: char) {
    c !in s
  }

  lemma IndexOfCharAfter(a: string, c: char, b: string)
    requires Free(a, c)
    ensures IndexOfChar(a + [c] + b, c) == Some(|a|)
  {
    var s := a + [c] + b;
    assert s[|a|] == c;
  }

  lemma SplitCons(a: string, c: char, b: string)
    requires Free(a, c)
    ensures Split(a + [c] + b, c) == [a] + Split(b, c)
  {
    IndexOfCharAfter(a, c, b);
    var s := a + [c] + b;
    assert s[..|a|] == a;
    assert s[|a| + 1..] == b;
  }

  lemma FieldAt(k: string, v: string)
    requires Free(k, '=')
    ensures Field(k + "=" + v) == (k, v)
  {
    IndexOfCharAfter(k, '=', v);
    var s := k + "=" + v;
    assert s == k + ['='] + v;
    assert s[..|k|] == k;
    assert s[|k| + 1..] == v;
  }

  lemma ParsePrefix(p: string, body: string)
    requires Free(p, ':')
    ensures ParseDsn(p + ":" + body) == Some(Dsn(p, body))
    ensures (p + ":" + body)[|p| + 1..] == body
  {
    IndexOfCharAfter(p, ':', body);
    var s := p + ":" + body;
    assert s == p + [':'] + body;
    assert s[..|p|] == p;
    assert s[|p| + 1..] == body;
  }

  /** The fields a server driver's connection string is meant to carry. */
  function ServerFields(d: Driver, config: Config): seq<(string, string)> {
    [("dbname", ConfigString(config, "database")), ("host", ConfigString(config, "host"))]
    + (if d == MySql then [("charset", "utf8")] else [])
  }

  /** The prefix before ':' in each driver's connection string. */
  function DriverPrefix(d: Driver): string {
    match d
    case MySql => MYSQL_DRIVER
    case PostgreSql => PGSQL_DRIVER
    case MsSql => MSSQL_DRIVER
    case Sqlite => "sqlite"
  }

  lemma FieldsOfTwo(p1: string, p2: string)
    ensures FieldsOf([p1, p2]) == [Field(p1), Field(p2)]
  {
    assert [p2][1..] == [];
    assert FieldsOf([p2]) == [Field(p2)];
    assert [p1, p2][1..] == [p2];
  }

  lemma FieldsOfThree(p1: string, p2: string, p3: string)
    ensures FieldsOf([p1, p2, p3]) == [Field(p1), Field(p2), Field(p3)]
  {
    assert [p1, p2, p3][1..] == [p2, p3];
    FieldsOfTwo(p2, p3);
  }

  /** A "<key>=<value>" piece with a plain key (no '=' or ';') and a value without ';'
      reads back as that key and value, and holds no ';' itself. */
  lemma KeyPiece(key: string, value: string)
    requires Free(key, '=') && Free(key, ';') && Free(value, ';')
    ensures Free(key + "=" + value, ';') && Field(key + "=" + value) == (key, value)
  {
    FieldAt(key, value);
  }

  /** The dbname and host pieces of a server connection string. */
  lemma ServerPieces(db: string, host: string)
    requires Free(db, ';') && Free(host, ';')
    ensures Free("dbname=" + db, ';') && Field("dbname=" + db) == ("dbname", db)
    ensures Free("host=" + host, ';') && Field("host=" + host) == ("host", host)
  {
    assert Free("dbname", '=') && Free("dbname", ';');
    assert Free("host", '=') && Free("host", ';');
    KeyPiece("dbname", db);
    KeyPiece("host", host);
    assert "dbname=" + db == "dbname" + "=" + db;
    assert "host=" + host == "host" + "=" + host;
  }

  /** The body "dbname=<db>;host=<host>" holds exactly those two fields. */
  lemma TwoFieldBody(db: string, host: string)
    requires Free(db, ';') && Free(host, ';')
    ensures Fields("dbname=" + db + ";host=" + host) == [("dbname", db), ("host", host)]
  {
    ServerPieces(db, host);
    var p1 := "dbname=" + db;
    var p2 := "host=" + host;
    assert "dbname=" + db + ";host=" + host == p1 + [';'] + p2;
    SplitCons(p1, ';', p2);
    assert Split(p2, ';') == [p2];
    FieldsOfTwo(p1, p2);
  }

  lemma CharsetPiece()
    ensures Field("charset=utf8") == ("charset", "utf8")
  {
    assert Free("charset", '=');
    FieldAt("charset", "utf8");
    assert "charset=utf8" == "charset" + "=" + "utf8";
  }

  lemma SplitThree(p1: string, p2: string, p3: string, c: char)
    requires Free(p1, c) && Free(p2, c) && Free(p3, c)
    ensures Split(p1 + [c] + p2 + [c] + p3, c) == [p1, p2, p3]
  {
    var tail := p2 + [c] + p3;
    assert p1 + [c] + p2 + [c] + p3 == p1 + [c] + tail;
    SplitCons(p2, c, p3);
    assert Split(p3, c) == [p3];
    SplitCons(p1, c, tail);
  }

  lemma Regroup(a: string, b: string, c: string, d: string, e: string)
    ensures a + b + ([';'] + c) + d + ([';'] + e) == (a + b) + [';'] + (c + d) + [';'] + e
  {
  }

  lemma ThreeFieldSplit(db: string, host: string)
    requires Free(db, ';') && Free(host, ';')
    ensures Split("dbname=" + db + ";host=" + host + ";charset=utf8", ';') == ["dbname=" + db, "host=" + host, "charset=utf8"]
  {
    var p1 := "dbname=" + db;
    var p2 := "host=" + host;
    var p3 := "charset=utf8";
    ServerPieces(db, host);
    assert Free(p3, ';');
    assert ";host=" == [';'] + "host=" && ";charset=utf8" == [';'] + "charset=utf8";
    Regroup("dbname=", db, "host=", host, "charset=utf8");
    SplitThree(p1, p2, p3, ';');
  }

  /** The body "dbname=<db>;host=<host>;charset=utf8" holds exactly those three fields. */
  lemma ThreeFieldBody(db: string, host: string)
    requires Free(db, ';') && Free(host, ';')
    ensures Fields("dbname=" + db + ";host=" + host + ";charset=utf8")
         == [("dbname", db), ("host", host), ("charset", "utf8")]
  {
    ThreeFieldSplit(db, host);
    FieldsOfThree("dbname=" + db, "host=" + host, "charset=utf8");
    ServerPieces(db, host);
    CharsetPiece();
  }

  /** What follows "<driver>:" in a server driver's connection string. */
  function ServerBody(d: Driver, config: Config): string {
    "dbname=" + ConfigString(config, "database") + ";host=" + ConfigString(config, "host")
    + (if d == MySql then ";charset=utf8" else "")
  }

  lemma DsnSplit(p: string, db: string, host: string, suffix: string)
    ensures p + ":dbname=" + db + ";host=" + host + suffix == p + ":" + ("dbname=" + db + ";host=" + host + suffix)
  {
    assert ":dbname=" == ":" + "dbname=";
    var body := "dbname=" + db + ";host=" + host + suffix;
    assert p + ":dbname=" + db + ";host=" + host + suffix == p + ":" + "dbname=" + db + ";host=" + host + suffix;
    assert p + ":" + "dbname=" + db + ";host=" + host + suffix == (p + ":") + body;
  }

  lemma ServerConnectionStringShape(d: Driver, config: Config)
    requires d != Sqlite
    ensures ConnectionString(d, config) == DriverPrefix(d) + ":" + ServerBody(d, config)
    ensures Free(DriverPrefix(d), ':')
  {
    var db := ConfigString(config, "database");
    var host := ConfigString(config, "host");
    if d == MySql {
      assert Free(MYSQL_DRIVER, ':');
      DsnSplit(MYSQL_DRIVER, db, host, ";charset=utf8");
    } else {
      assert ServerBody(d, config) == "dbname=" + db + ";host=" + host + "";
      assert ConnectionString(d, config) == DriverPrefix(d) + ":dbname=" + db + ";host=" + host + "";
      assert Free(PGSQL_DRIVER, ':') && Free(MSSQL_DRIVER, ':');
      DsnSplit(DriverPrefix(d), db, host, "");
    }
  }

  lemma ServerBodyFields(d: Driver, config: Config)
    requires Free(ConfigString(config, "database"), ';') && Free(ConfigString(config, "host"), ';')
    ensures Fields(ServerBody(d, config)) == ServerFields(d, config)
  {
    var db := ConfigString(config, "database");
    var host := ConfigString(config, "host");
    if d == MySql {
      ThreeFieldBody(db, host);
    } else {
      assert ServerBody(d, config) == "dbname=" + db + ";host=" + host;
      TwoFieldBody(db, host);
    }
  }

  /** A server driver's connection string reads back as its DRIVER constant and
      exactly the fields dbname, host (and, for MySQL only, charset=utf8), as long
      as the database and host values contain no ';'. */
  lemma ServerConnectionStringReadsBack(d: Driver, config: Config)
    requires d != Sqlite
    requires Free(ConfigString(config, "database"), ';') && Free(ConfigString(config, "host"), ';')
    ensures var cs := ConnectionString(d, config);
      && ParseDsn(cs) == Some(Dsn(DriverPrefix(d), cs[|DriverPrefix(d)| + 1..]))
      && Fields(cs[|DriverPrefix(d)| + 1..]) == ServerFields(d, config)
  {
    ServerConnectionStringShape(d, config);
    ParsePrefix(DriverPrefix(d), ServerBody(d, config));
    ServerBodyFields(d, config);
  }

  /** The SQLite connection string reads back as prefix "sqlite" and the file path, whatever the path holds. */
  lemma SqliteConnectionStringReadsBack(config: Config)
    ensures ParseDsn(ConnectionString(Sqlite, config)) == Some(Dsn("sqlite", ConfigString(config, "file")))
  {
    assert Free("sqlite", ':');
    assert "sqlite:" + ConfigString(config, "file") == "sqlite" + ":" + ConfigString(config, "file");
    ParsePrefix("sqlite", ConfigString(config, "file"));
  }

  /** A connection string depends only on the driver's own keys: in particular user
      and pass never appear in it. */
  lemma ConnectionStringUsesOnlyItsKeys(d: Driver, c1: Config, c2: Config)
    requires forall k :: k in DsnKeys(d) ==> ConfigString(c1, k) == ConfigString(c2, k)
    ensures ConnectionString(d, c1) == ConnectionString(d, c2)
  {
  }

  /** Different database or host values give different server connection strings
      (when neither contains ';'). */
  lemma ServerConnectionStringInjective(d: Driver, c1: Config, c2: Config)
    requires d != Sqlite
    requires Free(ConfigString(c1, "database"), ';') && Free(ConfigString(c1, "host"), ';')
    requires Free(ConfigString(c2, "database"), ';') && Free(ConfigString(c2, "host"), ';')
    requires ConnectionString(d, c1) == ConnectionString(d, c2)
    ensures ConfigString(c1, "database") == ConfigString(c2, "database")
    ensures ConfigString(c1, "host") == ConfigString(c2, "host")
  {
    ServerConnectionStringReadsBack(d, c1);
    ServerConnectionStringReadsBack(d, c2);
    assert ServerFields(d, c1)[0].1 == ConfigString(c1, "database");
    assert ServerFields(d, c1)[1].1 == ConfigString(c1, "host");
  }

  /** The MySQL string ends in ";charset=utf8" whatever the configuration holds. */
  lemma MysqlCharsetSuffix(config: Config)
    ensures var cs := ConnectionString(MySql, config);
      |cs| >= 13 && cs[|cs| - 13..] == ";charset=utf8"
  {
    var cs := ConnectionString(MySql, config);
    var rest := MYSQL_DRIVER + ":dbname=" + ConfigString(config, "database") + ";host=" + ConfigString(config, "host");
    assert cs == rest + ";charset=utf8";
    assert cs[|rest|..] == ";charset=utf8";
  }

  /** The PostgreSQL and MSSQL strings carry no charset field, as long as database
      and host hold no ';'. */
  lemma CharsetOnlyForMysql(d: Driver, config: Config)
    requires d == PostgreSql || d == MsSql
    requires Free(ConfigString(config, "database"), ';') && Free(ConfigString(config, "host"), ';')
    ensures ConnectionString(d, config) == DriverPrefix(d) + ":" + ServerBody(d, config)
    ensures forall f :: f in Fields(ServerBody(d, config)) ==> f.0 != "charset"
  {
    ServerConnectionStringShape(d, config);
    ServerBodyFields(d, config);
  }

  // ---------------------------------------------------------------------------
  // Configuration values are not escaped

  lemma ShiftSeparator(k1: string, a: string, k2: string, b: string, c: string)
    ensures k1 + (a + k2 + b) + k2 + c == k1 + a + k2 + (b + k2 + c)
  {
  }

  /** A ';' in a configuration value is copied into the connection string as it
      is, so a database "<a>;host=<b>" with host "<c>" builds the same string as
      a database "<a>" with host "<b>;host=<c>": the ';'-free condition of the
      read-back lemmas cannot be dropped. */
  lemma SemicolonCollision(d: Driver, c1: Config, c2: Config, a: string, b: string, c: string)
    requires d != Sqlite
    requires ConfigString(c1, "database") == a + ";host=" + b && ConfigString(c1, "host") == c
    requires ConfigString(c2, "database") == a && ConfigString(c2, "host") == b + ";host=" + c
    ensures ConnectionString(d, c1) == ConnectionString(d, c2)
    ensures ConfigString(c1, "database") != ConfigString(c2, "database")
  {
    ServerConnectionStringShape(d, c1);
    ServerConnectionStringShape(d, c2);
    var suffix := if d == MySql then ";charset=utf8" else "";
    ShiftSeparator("dbname=", a, ";host=", b, c);
    assert ServerBody(d, c1) == "dbname=" + (a + ";host=" + b) + ";host=" + c + suffix;
    assert ServerBody(d, c2) == "dbname=" + a + ";host=" + (b + ";host=" + c) + suffix;
    assert |ConfigString(c1, "database")| > |ConfigString(c2, "database")|;
  }

  /** A "charset=<v>" piece with a value without ';'. */
  lemma CharsetValuePiece(v: string)
    requires Free(v, ';')
    ensures Free("charset=" + v, ';') && Field("charset=" + v) == ("charset", v)
  {
    assert Free("charset", '=') && Free("charset", ';');
    KeyPiece("charset", v);
    assert "charset=" + v == "charset" + "=" + v;
  }

  lemma Regroup2(k1: string, a: string, k2: string, v: string, k3: string, h: string)
    ensures k1 + (a + ([';'] + k2) + v) + ([';'] + k3) + h == (k1 + a) + [';'] + (k2 + v) + [';'] + (k3 + h)
  {
  }

  lemma InjectedSplit(a: string, v: string, host: string)
    requires Free(a, ';') && Free(v, ';') && Free(host, ';')
    ensures Split("dbname=" + (a + ";charset=" + v) + ";host=" + host, ';')
         == ["dbname=" + a, "charset=" + v, "host=" + host]
  {
    var p1 := "dbname=" + a;
    var p2 := "charset=" + v;
    var p3 := "host=" + host;
    ServerPieces(a, host);
    CharsetValuePiece(v);
    assert ";charset=" == [';'] + "charset=" && ";host=" == [';'] + "host=";
    Regroup2("dbname=", a, "charset=", v, "host=", host);
    SplitThree(p1, p2, p3, ';');
  }

  lemma InjectedFields(a: string, v: string, host: string)
    requires Free(a, ';') && Free(v, ';') && Free(host, ';')
    ensures Fields("dbname=" + (a + ";charset=" + v) + ";host=" + host)
         == [("dbname", a), ("charset", v), ("host", host)]
  {
    InjectedSplit(a, v, host);
    FieldsOfThree("dbname=" + a, "charset=" + v, "host=" + host);
    ServerPieces(a, host);
    CharsetValuePiece(v);
  }

  /** A database value "<a>;charset=<v>" puts a charset field into a PostgreSQL or
      MSSQL connection string, between dbname and host. */
  lemma CharsetInjection(d: Driver, config: Config, a: string, v: string)
    requires d == PostgreSql || d == MsSql
    requires ConfigString(config, "database") == a + ";charset=" + v
    requires Free(a, ';') && Free(v, ';') && Free(ConfigString(config, "host"), ';')
    ensures var cs := ConnectionString(d, config);
      && ParseDsn(cs) == Some(Dsn(DriverPrefix(d), cs[|DriverPrefix(d)| + 1..]))
      && Fields(cs[|DriverPrefix(d)| + 1..]) == [("dbname", a), ("charset", v), ("host", ConfigString(config, "host"))]
  {
    var host := ConfigString(config, "host");
    ServerConnectionStringShape(d, config);
    ParsePrefix(DriverPrefix(d), ServerBody(d, config));
    assert ServerBody(d, config) == "dbname=" + (a + ";charset=" + v) + ";host=" + host;
    InjectedFields(a, v, host);
  }
}

=== FILE: observer.dfy ===
/** The database observer: process-wide counters and a query log, updated on
    every notification a database session sends. The counters live in static
    fields in the source; here they are one immutable record threaded through. */
module DatabaseObserver {

  /** The notification types the observer knows. */
  const SELECT: string := "select"
  const INSERT: string := "insert"
  const UPDATE: string := "update"
  const DELETE: string := "delete"
  const QUERY: string := "query"
  const WRITE: string := "write"
  const READ: string := "read"

  /** The types that have a case in the observer's switch (READ has none). */
  const CountedTypes: set<string> := {SELECT, INSERT, UPDATE, DELETE, QUERY, WRITE}

  datatype Metrics = Metrics(
    queryCount: nat,
    queryList: seq<string>,
    selectCount: nat,
    insertCount: nat,
    updateCount: nat,
    deleteCount: nat,
    writeCount: nat,
    readCount: nat)

  /** The static initial values. */
  const Initial: Metrics := Metrics(0, [], 0, 0, 0, 0, 0, 0)

  /** Who sent the notification: a database session (with its current last query) or anything else. */
  datatype Subject = DatabaseSession(lastQuery: string) | OtherObservable

  /** 1 when a database session sent a notification of type `kind`, else 0. */
  function Hit(subject: Subject, t: string, kind: string): nat {
    if subject.DatabaseSession? && t == kind then 1 else 0
  }

  /** Every counter is at least as large and the old query log is a prefix of the new one. */
  predicate Grows(m: Metrics, m': Metrics) {
    && m.queryCount <= m'.queryCount
    && m.queryList <= m'.queryList
    && m.selectCount <= m'.selectCount
    && m.insertCount <= m'.insertCount
    && m.updateCount <= m'.updateCount
    && m.deleteCount <= m'.deleteCount
    && m.writeCount <= m'.writeCount
    && m.readCount <= m'.readCount
  }

  /** The two invariants the counters keep from the initial state on. */
  predicate Consistent(m: Metrics) {
    m.readCount == m.selectCount && |m.queryList| == m.queryCount
  }

  /** `DatabaseObserver::update($observable, $type)`. */
  function Update(m: Metrics, subject: Subject, t: string): (r: Metrics)
    ensures r.selectCount == m.selectCount + Hit(subject, t, SELECT)
    ensures r.readCount == m.readCount + Hit(subject, t, SELECT)
    ensures r.insertCount == m.insertCount + Hit(subject, t, INSERT)
    ensures r.updateCount == m.updateCount + Hit(subject, t, UPDATE)
    ensures r.deleteCount == m.deleteCount + Hit(subject, t, DELETE)
    ensures r.writeCount == m.writeCount + Hit(subject, t, INSERT) + Hit(subject, t, UPDATE)
                                        + Hit(subject, t, DELETE) + Hit(subject, t, WRITE)
    ensures r.queryCount == m.queryCount + Hit(subject, t, QUERY)
    ensures r.queryList == m.queryList + (if Hit(subject, t, QUERY) == 1 then [subject.lastQuery] else [])
    ensures Grows(m, r)
    ensures Consistent(m) ==> Consistent(r)
    ensures !subject.DatabaseSession? || t !in CountedTypes ==> r == m
  {
    if !subject.DatabaseSession? then m
    else if t == SELECT then m.(selectCount := m.selectCount + 1, readCount := m.readCount + 1)
    else if t == INSERT then m.(insertCount := m.insertCount + 1, writeCount := m.writeCount + 1)
    else if t == UPDATE then m.(updateCount := m.updateCount + 1, writeCount := m.writeCount + 1)
    else if t == DELETE then m.(deleteCount := m.deleteCount + 1, writeCount := m.writeCount + 1)
    else if t == WRITE then m.(writeCount := m.writeCount + 1)
    else if t == QUERY then m.(queryCount := m.queryCount + 1, queryList := m.queryList + [subject.lastQuery])
    else m
  }

  /** The READ type has no case in the switch: it changes nothing. */
  lemma ReadIsIgnored(m: Metrics, subject: Subject)
    ensures Update(m, subject, READ) == m
  {
  }

  // ---------------------------------------------------------------------------
  // Sequences of notifications

  datatype Notification = Notification(subject: Subject, kind: string)

  function Replay(m: Metrics, ns: seq<Notification>): Metrics
    decreases |ns|
  {
    if ns == [] then m
    else Update(Replay(m, ns[..|ns| - 1]), ns[|ns| - 1].subject, ns[|ns| - 1].kind)
  }

  /** The number of notifications of type `kind` sent by database sessions. */
  function Count(ns: seq<Notification>, kind: string): nat
    decreases |ns|
  {
    if ns == [] then 0
    else Count(ns[..|ns| - 1], kind) + Hit(ns[|ns| - 1].subject, ns[|ns| - 1].kind, kind)
  }

  /** The last queries carried by the QUERY notifications of database sessions, in order. */
  function Logged(ns: seq<Notification>): seq<string>
    decreases |ns|
  {
    if ns == [] then []
    else Logged(ns[..|ns| - 1])
         + (if Hit(ns[|ns| - 1].subject, ns[|ns| - 1].kind, QUERY) == 1 then [ns[|ns| - 1].subject.lastQuery] else [])
  }

  /** Each counter grows by the number of notifications that feed it, and the log
      grows by exactly the queries the QUERY notifications carried. */
  lemma {:induction false} ReplayCounts(m: Metrics, ns: seq<Notification>)
    ensures var r := Replay(m, ns);
      && r.selectCount == m.selectCount + Count(ns, SELECT)
      && r.readCount == m.readCount + Count(ns, SELECT)
      && r.insertCount == m.insertCount + Count(ns, INSERT)
      && r.updateCount == m.updateCount + Count(ns, UPDATE)
      && r.deleteCount == m.deleteCount + Count(ns, DELETE)
      && r.writeCount == m.writeCount + Count(ns, INSERT) + Count(ns, UPDATE) + Count(ns, DELETE) + Count(ns, WRITE)
      && r.queryCount == m.queryCount + Count(ns, QUERY)
      && r.queryList == m.queryList + Logged(ns)
      && Grows(m, r)
    decreases |ns|
  {
    if ns != [] {
      ReplayCounts(m, ns[..|ns| - 1]);
    }
  }

  /** The log holds one query per QUERY notification from a database session. */
  lemma {:induction false} LoggedLength(ns: seq<Notification>)
    ensures |Logged(ns)| == Count(ns, QUERY)
    decreases |ns|
  {
    if ns != [] {
      LoggedLength(ns[..|ns| - 1]);
    }
  }

  /** From the initial state: readCount equals selectCount, the log is as long as
      queryCount, and writeCount is the insert, update and delete counts plus the
      number of WRITE notifications. */
  lemma {:induction false} ReplayFromInitial(ns: seq<Notification>)
    ensures var r := Replay(Initial, ns);
      && Consistent(r)
      && r.writeCount == r.insertCount + r.updateCount + r.deleteCount + Count(ns, WRITE)
      && r.queryList == Logged(ns)
  {
    ReplayCounts(Initial, ns);
    LoggedLength(ns);
  }
}

=== FILE: php_arrays.dfy ===
/** PHP's ordered arrays, modelled as a sequence of (key, value) entries in
    insertion order, and `array_merge` over them.

    `array_merge($a, $b)` builds a fresh array by copying the entries of `$a`
    and then of `$b`: an entry with a string key is written under that key
    (replacing the value in place when the key is already there), and an entry
    with an integer key is appended under the next free index, so integer keys
    come out renumbered 0, 1, 2, … and are never overwritten. */
module PhpArrays {
  import opened PhpValues

  /** A key after PHP's own normalisation (a decimal string such as "5" is stored as 5). */
  datatype Key = IntKey(n: int) | StrKey(s: string)

  datatype Entry = Entry(key: Key, value: PhpValue)

  type PhpArray = seq<Entry>

  /** No string key occurs twice (true of every PHP array). */
  predicate StrKeysDistinct(a: PhpArray) {
    forall i, j :: 0 <= i < j < |a| && a[i].key.StrKey? ==> a[i].key != a[j].key
  }

  /** No key occurs twice. */
  predicate KeysDistinct(a: PhpArray) {
    forall i, j :: 0 <= i < j < |a| ==> a[i].key != a[j].key
  }

  /** The number of integer-keyed entries. */
  function IntCount(a: PhpArray): nat {
    if a == [] then 0
    else IntCount(a[..|a| - 1]) + (if a[|a| - 1].key.IntKey? then 1 else 0)
  }

  /** The values stored under integer keys, in array order. */
  function IntValues(a: PhpArray): seq<PhpValue> {
    if a == [] then []
    else IntValues(a[..|a| - 1]) + (if a[|a| - 1].key.IntKey? then [a[|a| - 1].value] else [])
  }

  /** Entry `e` moved to integer index `n`; a string-keyed entry is left alone. */
  function Reindex(e: Entry, n: nat): Entry {
    if e.key.IntKey? then Entry(IntKey(n), e.value) else e
  }

  /** The array with its integer keys replaced by 0, 1, 2, … in order. */
  function Renumber(a: PhpArray): (r: PhpArray)
    ensures |r| == |a|
  {
    if a == [] then []
    else Renumber(a[..|a| - 1]) + [Reindex(a[|a| - 1], IntCount(a[..|a| - 1]))]
  }

  /** The shape `array_merge` always returns: integer keys are already 0, 1, 2, … in order. */
  predicate Packed(a: PhpArray) {
    Renumber(a) == a
  }

  /** The position of key `k`; with a repeated key (which a PHP array never has) the last one. */
  function IndexOf(a: PhpArray, k: Key): (r: Option<nat>)
    ensures r.Some? ==> r.value < |a| && a[r.value].key == k
    ensures r.None? ==> forall i :: 0 <= i < |a| ==> a[i].key != k
  {
    if a == [] then None
    else if a[|a| - 1].key == k then Some(|a| - 1)
    else IndexOf(a[..|a| - 1], k)
  }

  /** `$a[$k]`, or None when the key is absent. */
  function Get(a: PhpArray, k: Key): Option<PhpValue> {
    match IndexOf(a, k)
    case None => None
    case Some(i) => Some(a[i].value)
  }

  /** One copy step of `array_merge`: write entry `e` into the result built so far. */
  function Push(acc: PhpArray, e: Entry): PhpArray {
    match e.key
    case IntKey(_) => acc + [Entry(IntKey(IntCount(acc)), e.value)]
    case StrKey(_) =>
      match IndexOf(acc, e.key)
      case Some(i) => acc[i := e]
      case None => acc + [e]
  }

  /** Copies the entries `es`, in order, into `acc`. */
  function PushAll(acc: PhpArray, es: PhpArray): PhpArray
    decreases |es|
  {
    if es == [] then acc else Push(PushAll(acc, es[..|es| - 1]), es[|es| - 1])
  }

  /** `array_merge($a, $b)`. */
  function ArrayMerge(a: PhpArray, b: PhpArray): PhpArray {
    PushAll(PushAll([], a), b)
  }

  // ---------------------------------------------------------------------------
  // Helper facts

  lemma GetSnoc(a: PhpArray, e: Entry, k: Key)
    ensures Get(a + [e], k) == if e.key == k then Some(e.value) else Get(a, k)
  {
    assert (a + [e])[..|a|] == a;
  }

  lemma {:induction false} IndexOfSameKeys(a: PhpArray, b: PhpArray, k: Key)
    requires |a| == |b| && forall i :: 0 <= i < |a| ==> a[i].key == b[i].key
    ensures IndexOf(a, k) == IndexOf(b, k)
    decreases |a|
  {
    if a != [] {
      IndexOfSameKeys(a[..|a| - 1], b[..|b| - 1], k);
    }
  }

  lemma {:induction false} RenumberAt(a: PhpArray, i: nat)
    requires i < |a|
    ensures Renumber(a)[i] == Reindex(a[i], IntCount(a[..i]))
    decreases |a|
  {
    var init := a[..|a| - 1];
    if i < |a| - 1 {
      RenumberAt(init, i);
      assert init[..i] == a[..i];
    } else {
      assert init == a[..i];
    }
  }

  lemma {:induction false} IntCountRenumber(a: PhpArray)
    ensures IntCount(Renumber(a)) == IntCount(a)
    ensures IntValues(Renumber(a)) == IntValues(a)
    decreases |a|
  {
    if a != [] {
      var r := Renumber(a);
      IntCountRenumber(a[..|a| - 1]);
      assert r[..|r| - 1] == Renumber(a[..|a| - 1]);
    }
  }

  /** Overwriting a string-keyed entry with another string-keyed entry changes
      neither the integer-keyed part nor the renumbering. */
  lemma {:induction false} UpdateStrCounts(a: PhpArray, k: nat, e: Entry)
    requires k < |a| && a[k].key.StrKey? && e.key.StrKey?
    ensures IntCount(a[k := e]) == IntCount(a)
    ensures IntValues(a[k := e]) == IntValues(a)
    decreases |a|
  {
    var a' := a[k := e];
    var init := a[..|a| - 1];
    if k == |a| - 1 {
      assert a'[..|a'| - 1] == init;
    } else {
      assert a'[..|a'| - 1] == init[k := e];
      UpdateStrCounts(init, k, e);
    }
  }

  lemma {:induction false} UpdateStrEntry(a: PhpArray, k: nat, e: Entry)
    requires k < |a| && a[k].key.StrKey? && e.key.StrKey?
    ensures IntCount(a[k := e]) == IntCount(a)
    ensures IntValues(a[k := e]) == IntValues(a)
    ensures Renumber(a[k := e]) == Renumber(a)[k := e]
    decreases |a|
  {
    UpdateStrCounts(a, k, e);
    var a' := a[k := e];
    var init := a[..|a| - 1];
    if k == |a| - 1 {
      assert a'[..|a'| - 1] == init;
      assert Renumber(a') == Renumber(init) + [e];
    } else {
      var init' := init[k := e];
      assert a'[..|a'| - 1] == init';
      UpdateStrEntry(init, k, e);
      assert Renumber(a') == Renumber(init') + [Reindex(a[|a| - 1], IntCount(init))];
    }
  }

  lemma {:induction false} IntCountPrefix(a: PhpArray, i: nat, j: nat)
    requires i < j <= |a| && a[i].key.IntKey?
    ensures IntCount(a[..j]) >= IntCount(a[..i]) + 1
    decreases j
  {
    var p := a[..j];
    assert p[..|p| - 1] == a[..j - 1];
    if j - 1 > i {
      IntCountPrefix(a, i, j - 1);
    } else {
      assert a[..j - 1] == a[..i];
    }
  }

  /** In a packed array every integer key is distinct, so only string keys can clash. */
  lemma PackedKeysDistinct(a: PhpArray)
    requires Packed(a) && StrKeysDistinct(a)
    ensures KeysDistinct(a)
  {
    forall i, j | 0 <= i < j < |a| && a[i].key.IntKey? && a[j].key.IntKey?
      ensures a[i].key != a[j].key
    {
      RenumberAt(a, i);
      RenumberAt(a, j);
      IntCountPrefix(a, i, j);
    }
  }

  // ---------------------------------------------------------------------------
  // One copy step

  /** A copy step keeps every earlier key in place and changes a value only under the key it writes. */
  ghost predicate PushKeeps(acc: PhpArray, e: Entry, r: PhpArray) {
    && StrKeysDistinct(r)
    && |acc| <= |r|
    && (forall i :: 0 <= i < |acc| ==> r[i].key == acc[i].key)
    && (forall i :: 0 <= i < |acc| ==>
          r[i].value == if acc[i].key == e.key && e.key.StrKey? then e.value else acc[i].value)
  }

  /** After a copy step, a string key reads the value just written or the one it had before. */
  ghost predicate PushLooks(acc: PhpArray, e: Entry, r: PhpArray) {
    forall s :: Get(r, StrKey(s)) == if e.key == StrKey(s) then Some(e.value) else Get(acc, StrKey(s))
  }

  /** What one copy step guarantees about its result `r`. */
  ghost predicate PushSpec(acc: PhpArray, e: Entry, r: PhpArray) {
    && PushKeeps(acc, e, r)
    && PushLooks(acc, e, r)
    && (Packed(acc) ==> Packed(r))
    && IntValues(r) == IntValues(acc) + (if e.key.IntKey? then [e.value] else [])
  }

  /** Appending an entry whose key is new keeps the earlier entries as they are. */
  lemma SnocKeeps(acc: PhpArray, x: Entry)
    requires StrKeysDistinct(acc) && (x.key.StrKey? ==> IndexOf(acc, x.key).None?)
    ensures StrKeysDistinct(acc + [x])
    ensures forall i :: 0 <= i < |acc| ==> (acc + [x])[i] == acc[i]
  {
  }

  lemma SnocLooks(acc: PhpArray, x: Entry)
    ensures forall s :: Get(acc + [x], StrKey(s)) == if x.key == StrKey(s) then Some(x.value) else Get(acc, StrKey(s))
  {
    forall s ensures Get(acc + [x], StrKey(s)) == if x.key == StrKey(s) then Some(x.value) else Get(acc, StrKey(s)) {
      GetSnoc(acc, x, StrKey(s));
    }
  }

  lemma SnocPacked(acc: PhpArray, x: Entry)
    requires x.key.StrKey? || x.key == IntKey(IntCount(acc))
    ensures Packed(acc) ==> Packed(acc + [x])
  {
    var r := acc + [x];
    assert r[..|r| - 1] == acc;
    assert Reindex(x, IntCount(acc)) == x;
  }

  lemma SnocIntValues(acc: PhpArray, x: Entry)
    ensures IntValues(acc + [x]) == IntValues(acc) + (if x.key.IntKey? then [x.value] else [])
  {
    var r := acc + [x];
    assert r[..|r| - 1] == acc;
  }

  lemma PushIntFacts(acc: PhpArray, e: Entry)
    requires StrKeysDistinct(acc) && e.key.IntKey?
    ensures PushSpec(acc, e, Push(acc, e))
  {
    var e' := Entry(IntKey(IntCount(acc)), e.value);
    assert Push(acc, e) == acc + [e'];
    SnocKeeps(acc, e');
    SnocLooks(acc, e');
    SnocPacked(acc, e');
    SnocIntValues(acc, e');
  }

  lemma UpdateGet(acc: PhpArray, e: Entry, k: nat, s: string)
    requires StrKeysDistinct(acc) && e.key.StrKey? && IndexOf(acc, e.key) == Some(k)
    ensures Get(acc[k := e], StrKey(s)) == if e.key == StrKey(s) then Some(e.value) else Get(acc, StrKey(s))
  {
    var r := acc[k := e];
    IndexOfSameKeys(r, acc, StrKey(s));
    match IndexOf(acc, StrKey(s))
    case None =>
    case Some(j) =>
      if e.key == StrKey(s) {
        assert j == k;
      } else {
        assert j != k;
        assert r[j] == acc[j];
      }
  }

  /** Overwriting the entry under an existing string key keeps every key and changes only that value. */
  lemma PushUpdateEntries(acc: PhpArray, e: Entry, k: nat)
    requires StrKeysDistinct(acc) && e.key.StrKey? && IndexOf(acc, e.key) == Some(k)
    ensures var r := acc[k := e];
      && StrKeysDistinct(r)
      && (forall i :: 0 <= i < |acc| ==> r[i].key == acc[i].key)
      && (forall i :: 0 <= i < |acc| ==>
            r[i].value == if acc[i].key == e.key && e.key.StrKey? then e.value else acc[i].value)
  {
    var r := acc[k := e];
    assert forall i :: 0 <= i < |acc| ==> r[i].key == acc[i].key;
    forall i | 0 <= i < |acc|
      ensures r[i].value == if acc[i].key == e.key && e.key.StrKey? then e.value else acc[i].value
    {
      if i != k && acc[i].key == e.key {
        assert false;
      }
    }
  }

  lemma PushUpdateLookups(acc: PhpArray, e: Entry, k: nat)
    requires StrKeysDistinct(acc) && e.key.StrKey? && IndexOf(acc, e.key) == Some(k)
    ensures forall s :: Get(acc[k := e], StrKey(s)) == if e.key == StrKey(s) then Some(e.value) else Get(acc, StrKey(s))
  {
    forall s ensures Get(acc[k := e], StrKey(s)) == if e.key == StrKey(s) then Some(e.value) else Get(acc, StrKey(s)) {
      UpdateGet(acc, e, k, s);
    }
  }

  lemma PushUpdateShape(acc: PhpArray, e: Entry, k: nat)
    requires e.key.StrKey? && IndexOf(acc, e.key) == Some(k)
    ensures Packed(acc) ==> Packed(acc[k := e])
    ensures IntValues(acc[k := e]) == IntValues(acc)
  {
    UpdateStrEntry(acc, k, e);
  }

  lemma PushUpdateFacts(acc: PhpArray, e: Entry, k: nat)
    requires StrKeysDistinct(acc) && e.key.StrKey? && IndexOf(acc, e.key) == Some(k)
    ensures PushSpec(acc, e, Push(acc, e))
  {
    assert Push(acc, e) == acc[k := e];
    PushUpdateEntries(acc, e, k);
    PushUpdateLookups(acc, e, k);
    PushUpdateShape(acc, e, k);
  }

  lemma PushAppendFacts(acc: PhpArray, e: Entry)
    requires StrKeysDistinct(acc) && e.key.StrKey? && IndexOf(acc, e.key) == None
    ensures PushSpec(acc, e, Push(acc, e))
  {
    assert Push(acc, e) == acc + [e];
    SnocKeeps(acc, e);
    SnocLooks(acc, e);
    SnocPacked(acc, e);
    SnocIntValues(acc, e);
  }

  lemma PushFacts(acc: PhpArray, e: Entry)
    requires StrKeysDistinct(acc)
    ensures PushSpec(acc, e, Push(acc, e))
  {
    if e.key.IntKey? {
      PushIntFacts(acc, e);
    } else if IndexOf(acc, e.key).Some? {
      PushUpdateFacts(acc, e, IndexOf(acc, e.key).value);
    } else {
      PushAppendFacts(acc, e);
    }
  }

  // ---------------------------------------------------------------------------
  // Copying a run of entries

  /** The integer-keyed values only ever grow at the end, one per integer-keyed entry copied. */
  lemma PushIntValues(acc: PhpArray, e: Entry)
    ensures IntValues(Push(acc, e)) == IntValues(acc) + (if e.key.IntKey? then [e.value] else [])
  {
    var r := Push(acc, e);
    if e.key.IntKey? || IndexOf(acc, e.key).None? {
      assert r[..|r| - 1] == acc;
    } else {
      UpdateStrEntry(acc, IndexOf(acc, e.key).value, e);
    }
  }

  lemma {:induction false} PushAllIntValues(acc: PhpArray, es: PhpArray)
    ensures IntValues(PushAll(acc, es)) == IntValues(acc) + IntValues(es)
    decreases |es|
  {
    if es != [] {
      var init := es[..|es| - 1];
      PushAllIntValues(acc, init);
      PushIntValues(PushAll(acc, init), es[|es| - 1]);
    }
  }

  lemma PushKeepsFacts(acc: PhpArray, e: Entry)
    requires StrKeysDistinct(acc)
    ensures PushKeeps(acc, e, Push(acc, e))
  {
    PushFacts(acc, e);
  }

  lemma PushLooksFacts(acc: PhpArray, e: Entry)
    requires StrKeysDistinct(acc)
    ensures PushLooks(acc, e, Push(acc, e))
  {
    PushFacts(acc, e);
  }

  lemma PushPacksFacts(acc: PhpArray, e: Entry)
    requires StrKeysDistinct(acc)
    ensures Packed(acc) ==> Packed(Push(acc, e))
  {
    PushFacts(acc, e);
  }

  lemma GetLast(es: PhpArray)
    requires es != []
    ensures forall k :: Get(es, k) == if es[|es| - 1].key == k then Some(es[|es| - 1].value) else Get(es[..|es| - 1], k)
  {
    var init := es[..|es| - 1];
    var e := es[|es| - 1];
    assert es == init + [e];
    forall k ensures Get(es, k) == if e.key == k then Some(e.value) else Get(init, k) {
      GetSnoc(init, e, k);
    }
  }

  /** Copying entries keeps the earlier keys in place; an earlier string-keyed value is replaced
      only when the copied entries bind that key. */
  lemma {:induction false} PushAllEntries(acc: PhpArray, es: PhpArray)
    requires StrKeysDistinct(acc)
    ensures var r := PushAll(acc, es);
      && StrKeysDistinct(r)
      && |acc| <= |r|
      && (forall i :: 0 <= i < |acc| ==> r[i].key == acc[i].key)
      && (forall i :: 0 <= i < |acc| ==>
            r[i].value == if acc[i].key.StrKey? && Get(es, acc[i].key).Some?
                          then Get(es, acc[i].key).value else acc[i].value)
    decreases |es|
  {
    if es != [] {
      var init := es[..|es| - 1];
      PushAllEntries(acc, init);
      PushKeepsFacts(PushAll(acc, init), es[|es| - 1]);
      GetLast(es);
    }
  }

  /** After copying entries, a string key reads the last copied value for it, or its earlier value. */
  lemma {:induction false} PushAllLookups(acc: PhpArray, es: PhpArray)
    requires StrKeysDistinct(acc)
    ensures forall s ::
              Get(PushAll(acc, es), StrKey(s)) == if Get(es, StrKey(s)).Some? then Get(es, StrKey(s)) else Get(acc, StrKey(s))
    decreases |es|
  {
    if es != [] {
      var init := es[..|es| - 1];
      PushAllLookups(acc, init);
      PushAllEntries(acc, init);
      PushLooksFacts(PushAll(acc, init), es[|es| - 1]);
      GetLast(es);
    }
  }

  /** Copying into a packed array leaves it packed. */
  lemma {:induction false} PushAllPacked(acc: PhpArray, es: PhpArray)
    requires StrKeysDistinct(acc)
    ensures Packed(acc) ==> Packed(PushAll(acc, es))
    decreases |es|
  {
    if es != [] {
      var init := es[..|es| - 1];
      PushAllPacked(acc, init);
      PushAllEntries(acc, init);
      PushPacksFacts(PushAll(acc, init), es[|es| - 1]);
    }
  }

  lemma PushAllFacts(acc: PhpArray, es: PhpArray)
    requires StrKeysDistinct(acc)
    ensures var r := PushAll(acc, es);
      && StrKeysDistinct(r)
      && (Packed(acc) ==> Packed(r))
      && |acc| <= |r|
      && (forall i :: 0 <= i < |acc| ==> r[i].key == acc[i].key)
      && (forall i :: 0 <= i < |acc| ==>
            r[i].value == if acc[i].key.StrKey? && Get(es, acc[i].key).Some?
                          then Get(es, acc[i].key).value else acc[i].value)
      && IntValues(r) == IntValues(acc) + IntValues(es)
      && (forall s :: Get(r, StrKey(s)) == if Get(es, StrKey(s)).Some? then Get(es, StrKey(s)) else Get(acc, StrKey(s)))
  {
    PushAllEntries(acc, es);
    PushAllLookups(acc, es);
    PushAllPacked(acc, es);
    PushAllIntValues(acc, es);
  }

  /** Copying a PHP array into an empty one only renumbers its integer keys. */
  lemma {:induction false} PushAllIntoEmpty(a: PhpArray)
    requires StrKeysDistinct(a)
    ensures PushAll([], a) == Renumber(a)
    decreases |a|
  {
    if a != [] {
      var init := a[..|a| - 1];
      var e := a[|a| - 1];
      PushAllIntoEmpty(init);
      var mid := Renumber(init);
      IntCountRenumber(init);
      if e.key.StrKey? {
        forall i | 0 <= i < |mid| ensures mid[i].key != e.key {
          RenumberAt(init, i);
        }
        assert IndexOf(mid, e.key) == None;
      }
    }
  }

  // ---------------------------------------------------------------------------
  // array_merge

  /** The result is a well-formed packed PHP array. */
  lemma ArrayMergeShape(a: PhpArray, b: PhpArray)
    ensures Packed(ArrayMerge(a, b)) && KeysDistinct(ArrayMerge(a, b))
  {
    var mid := PushAll([], a);
    PushAllFacts([], a);
    PushAllFacts(mid, b);
    PackedKeysDistinct(ArrayMerge(a, b));
  }

  /** A string key is present iff either input has it, and the later array's value wins. */
  lemma ArrayMergeStringKeys(a: PhpArray, b: PhpArray, s: string)
    ensures Get(ArrayMerge(a, b), StrKey(s)) ==
      if Get(b, StrKey(s)).Some? then Get(b, StrKey(s)) else Get(a, StrKey(s))
  {
    PushAllFacts([], a);
    PushAllFacts(PushAll([], a), b);
  }

  /** Integer-keyed values are never overwritten: those of `a` come first, then those of `b`. */
  lemma ArrayMergeIntValues(a: PhpArray, b: PhpArray)
    ensures IntValues(ArrayMerge(a, b)) == IntValues(a) + IntValues(b)
  {
    var mid := PushAll([], a);
    PushAllIntValues([], a);
    assert IntValues(mid) == IntValues(a);
    PushAllIntValues(mid, b);
  }

  /** The entries of `a` keep their positions at the front of the result: a string
      key keeps its place (with `b`'s value if `b` has that key), an integer key
      becomes its rank among `a`'s integer keys. */
  lemma ArrayMergePositions(a: PhpArray, b: PhpArray)
    requires StrKeysDistinct(a)
    ensures var r := ArrayMerge(a, b);
      && |a| <= |r|
      && (forall i :: 0 <= i < |a| && a[i].key.StrKey? ==>
            r[i].key == a[i].key
            && r[i].value == if Get(b, a[i].key).Some? then Get(b, a[i].key).value else a[i].value)
      && (forall i :: 0 <= i < |a| && a[i].key.IntKey? ==>
            r[i] == Entry(IntKey(IntCount(a[..i])), a[i].value))
  {
    PushAllIntoEmpty(a);
    var mid := Renumber(a);
    PushAllFacts([], a);
    PushAllFacts(mid, b);
    forall i | 0 <= i < |a| ensures mid[i] == Reindex(a[i], IntCount(a[..i])) {
      RenumberAt(a, i);
    }
  }

  /** Merging in an empty array renumbers the integer keys of `a`, so it changes
      nothing about an array that is already packed. */
  lemma ArrayMergeEmptyRight(a: PhpArray)
    requires StrKeysDistinct(a)
    ensures ArrayMerge(a, []) == Renumber(a)
    ensures Packed(a) ==> ArrayMerge(a, []) == a
  {
    PushAllIntoEmpty(a);
  }

  /** Copying `a` and then `b` is copying `a + b`. */
  lemma {:induction false} PushAllConcat(acc: PhpArray, a: PhpArray, b: PhpArray)
    ensures PushAll(PushAll(acc, a), b) == PushAll(acc, a + b)
    decreases |b|
  {
    if b == [] {
      assert a + b == a;
    } else {
      PushAllConcat(acc, a, b[..|b| - 1]);
      assert (a + b)[..|a + b| - 1] == a + b[..|b| - 1];
      assert (a + b)[|a + b| - 1] == b[|b| - 1];
    }
  }

  /** When no string key occurs twice in `a` and `b` together, `array_merge` is
      their concatenation with the integer keys renumbered: `b`'s entries follow
      `a`'s, in `b`'s order, integer keys continuing from `a`'s count. */
  lemma ArrayMergeDisjoint(a: PhpArray, b: PhpArray)
    requires StrKeysDistinct(a + b)
    ensures ArrayMerge(a, b) == Renumber(a + b)
  {
    PushAllConcat([], a, b);
    PushAllIntoEmpty(a + b);
  }

  /** Merging into an empty array renumbers the integer keys and keeps everything else. */
  lemma ArrayMergeEmptyLeft(b: PhpArray)
    requires StrKeysDistinct(b)
    ensures ArrayMerge([], b) == Renumber(b)
  {
    PushAllIntoEmpty(b);
  }

  // ---------------------------------------------------------------------------
  // The whole layout of array_merge

  /** Entry `e` of the first array once `b` is merged in: a string key takes
      `b`'s value when `b` binds it. */
  function Overwritten(e: Entry, b: PhpArray): Entry {
    if e.key.StrKey? && Get(b, e.key).Some? then Entry(e.key, Get(b, e.key).value) else e
  }

  /** The first array with each string-keyed value that `b` also binds taken from `b`. */
  function Overwrite(a: PhpArray, b: PhpArray): (r: PhpArray)
    ensures |r| == |a| && forall i :: 0 <= i < |a| ==> r[i] == Overwritten(a[i], b)
  {
    seq(|a|, i requires 0 <= i < |a| => Overwritten(a[i], b))
  }

  /** An entry of the second array is added after the first array's entries when
      its key is an integer, or a string the first array lacks. */
  predicate Adds(a: PhpArray, e: Entry) {
    e.key.IntKey? || IndexOf(a, e.key).None?
  }

  /** The entries of `b` that are added after `a`'s, in `b`'s order. */
  function Fresh(a: PhpArray, b: PhpArray): PhpArray
    decreases |b|
  {
    if b == [] then []
    else Fresh(a, b[..|b| - 1]) + (if Adds(a, b[|b| - 1]) then [b[|b| - 1]] else [])
  }

  lemma IndexOfSnoc(a: PhpArray, e: Entry, k: Key)
    ensures IndexOf(a + [e], k) == if e.key == k then Some(|a|) else IndexOf(a, k)
  {
    assert (a + [e])[..|a|] == a;
  }

  lemma FreshSnoc(a: PhpArray, b: PhpArray, e: Entry)
    ensures Fresh(a, b + [e]) == Fresh(a, b) + (if Adds(a, e) then [e] else [])
  {
    assert (b + [e])[..|b|] == b;
  }

  /** Every string key among the added entries comes from `b` and is absent from `a`. */
  lemma {:induction false} FreshKeys(a: PhpArray, b: PhpArray)
    ensures forall i :: 0 <= i < |Fresh(a, b)| && Fresh(a, b)[i].key.StrKey? ==>
      IndexOf(a, Fresh(a, b)[i].key).None? && IndexOf(b, Fresh(a, b)[i].key).Some?
    decreases |b|
  {
    if b != [] {
      var init := b[..|b| - 1];
      var e := b[|b| - 1];
      assert b == init + [e];
      FreshKeys(a, init);
      FreshSnoc(a, init, e);
      forall i | 0 <= i < |Fresh(a, b)| && Fresh(a, b)[i].key.StrKey?
        ensures IndexOf(a, Fresh(a, b)[i].key).None? && IndexOf(b, Fresh(a, b)[i].key).Some?
      {
        IndexOfSnoc(init, e, Fresh(a, b)[i].key);
      }
    }
  }

  /** Appending an entry to `b` overwrites exactly the entry of `a` with its string key. */
  lemma OverwriteSnoc(a: PhpArray, b: PhpArray, e: Entry)
    ensures forall i :: 0 <= i < |a| ==>
      Overwrite(a, b + [e])[i] == if a[i].key.StrKey? && a[i].key == e.key then e else Overwrite(a, b)[i]
  {
    forall i | 0 <= i < |a|
      ensures Overwrite(a, b + [e])[i] == if a[i].key.StrKey? && a[i].key == e.key then e else Overwrite(a, b)[i]
    {
      GetSnoc(b, e, a[i].key);
    }
  }

  /** An entry of `b` whose key `a` lacks overwrites nothing of `a`. */
  lemma OverwriteUnchanged(a: PhpArray, b: PhpArray, e: Entry)
    requires Adds(a, e)
    ensures Overwrite(a, b + [e]) == Overwrite(a, b)
  {
    OverwriteSnoc(a, b, e);
  }

  lemma RenumberSnoc(x: PhpArray, e: Entry)
    ensures Renumber(x + [e]) == Renumber(x) + [Reindex(e, IntCount(x))]
  {
    assert (x + [e])[..|x|] == x;
  }

  /** Renumbering keeps string keys where they are and puts no string key anywhere else. */
  lemma RenumberStrKey(x: PhpArray, j: nat)
    requires j < |x|
    ensures Renumber(x)[j].key.StrKey? <==> x[j].key.StrKey?
    ensures x[j].key.StrKey? ==> Renumber(x)[j].key == x[j].key
  {
    RenumberAt(x, j);
  }

  /** The copy step for an integer-keyed entry of `b`. */
  lemma MergeStepInt(a: PhpArray, b: PhpArray, e: Entry)
    requires e.key.IntKey?
    ensures Push(Renumber(Overwrite(a, b) + Fresh(a, b)), e)
         == Renumber(Overwrite(a, b + [e]) + Fresh(a, b + [e]))
  {
    var x := Overwrite(a, b) + Fresh(a, b);
    assert Overwrite(a, b + [e]) + Fresh(a, b + [e]) == x + [e] by {
      OverwriteUnchanged(a, b, e);
      FreshSnoc(a, b, e);
    }
    assert Renumber(x + [e]) == Renumber(x) + [Entry(IntKey(IntCount(x)), e.value)] by {
      RenumberSnoc(x, e);
    }
    assert IntCount(Renumber(x)) == IntCount(x) by {
      IntCountRenumber(x);
    }
  }

  /** With distinct string keys, the string key at position `k` occurs nowhere else. */
  lemma StrKeyOnce(a: PhpArray, k: nat)
    requires StrKeysDistinct(a) && k < |a| && a[k].key.StrKey?
    ensures forall i :: 0 <= i < |a| && i != k ==> a[i].key != a[k].key
  {
    forall i | 0 <= i < |a| && i != k
      ensures a[i].key != a[k].key
    {
      if i < k {
        assert a[i].key.StrKey? ==> a[i].key != a[k].key;
      } else {
        assert a[k].key != a[i].key;
      }
    }
  }

  lemma OverwriteAt(a: PhpArray, b: PhpArray, e: Entry, k: nat)
    requires StrKeysDistinct(a) && e.key.StrKey? && IndexOf(a, e.key) == Some(k)
    ensures Overwrite(a, b + [e]) == Overwrite(a, b)[k := e]
  {
    OverwriteSnoc(a, b, e);
    StrKeyOnce(a, k);
  }

  /** After `b` is copied, a string key of `a` is still found at its position in `a`. */
  lemma IndexOfOverwritten(a: PhpArray, b: PhpArray, key: Key, k: nat)
    requires StrKeysDistinct(a) && key.StrKey? && IndexOf(a, key) == Some(k)
    ensures IndexOf(Renumber(Overwrite(a, b) + Fresh(a, b)), key) == Some(k)
  {
    var x := Overwrite(a, b) + Fresh(a, b);
    var r := Renumber(x);
    StrKeyOnce(a, k);
    FreshKeys(a, b);
    forall j | 0 <= j < |r| && j != k
      ensures r[j].key != key
    {
      RenumberStrKey(x, j);
      if j >= |a| {
        assert x[j] == Fresh(a, b)[j - |a|];
      }
    }
    RenumberStrKey(x, k);
  }

  lemma UpdateConcat(o: PhpArray, f: PhpArray, k: nat, e: Entry)
    requires k < |o|
    ensures o[k := e] + f == (o + f)[k := e]
  {
  }

  /** The copy step for a string-keyed entry of `b` whose key `a` has at position `k`. */
  lemma MergeStepOverwrite(a: PhpArray, b: PhpArray, e: Entry, k: nat)
    requires StrKeysDistinct(a) && e.key.StrKey?
    requires IndexOf(a, e.key) == Some(k)
    ensures Push(Renumber(Overwrite(a, b) + Fresh(a, b)), e)
         == Renumber(Overwrite(a, b + [e]) + Fresh(a, b + [e]))
  {
    var o := Overwrite(a, b);
    var f := Fresh(a, b);
    var x := o + f;
    assert Overwrite(a, b + [e]) + Fresh(a, b + [e]) == x[k := e] by {
      OverwriteAt(a, b, e, k);
      FreshSnoc(a, b, e);
      UpdateConcat(o, f, k, e);
    }
    assert Renumber(x[k := e]) == Renumber(x)[k := e] by {
      assert x[k] == o[k];
      UpdateStrEntry(x, k, e);
    }
    assert Push(Renumber(x), e) == Renumber(x)[k := e] by {
      IndexOfOverwritten(a, b, e.key, k);
    }
  }

  /** A string key that neither `a` nor `b` has is absent after `b` is copied. */
  lemma IndexOfAbsent(a: PhpArray, b: PhpArray, key: Key)
    requires key.StrKey? && IndexOf(a, key).None? && IndexOf(b, key).None?
    ensures IndexOf(Renumber(Overwrite(a, b) + Fresh(a, b)), key) == None
  {
    var x := Overwrite(a, b) + Fresh(a, b);
    var r := Renumber(x);
    FreshKeys(a, b);
    forall j | 0 <= j < |r|
      ensures r[j].key != key
    {
      RenumberStrKey(x, j);
      if j >= |a| {
        assert x[j] == Fresh(a, b)[j - |a|];
      }
    }
  }

  /** The copy step for a string-keyed entry of `b` whose key neither `a` nor the
      earlier entries of `b` have. */
  lemma MergeStepAppend(a: PhpArray, b: PhpArray, e: Entry)
    requires e.key.StrKey? && IndexOf(a, e.key).None? && IndexOf(b, e.key).None?
    ensures Push(Renumber(Overwrite(a, b) + Fresh(a, b)), e)
         == Renumber(Overwrite(a, b + [e]) + Fresh(a, b + [e]))
  {
    var x := Overwrite(a, b) + Fresh(a, b);
    assert Overwrite(a, b + [e]) + Fresh(a, b + [e]) == x + [e] by {
      OverwriteUnchanged(a, b, e);
      FreshSnoc(a, b, e);
    }
    assert Renumber(x + [e]) == Renumber(x) + [e] by {
      RenumberSnoc(x, e);
    }
    assert Push(Renumber(x), e) == Renumber(x) + [e] by {
      IndexOfAbsent(a, b, e.key);
    }
  }

  /** Copying `b` into the renumbered `a` gives `a` with `b`'s values written over
      its string keys, followed by `b`'s added entries, all renumbered. */
  lemma {:induction false} PushAllLayout(a: PhpArray, b: PhpArray)
    requires StrKeysDistinct(a) && StrKeysDistinct(b)
    ensures PushAll(Renumber(a), b) == Renumber(Overwrite(a, b) + Fresh(a, b))
    decreases |b|
  {
    if b == [] {
      assert Overwrite(a, b) == a;
      assert Overwrite(a, b) + Fresh(a, b) == a;
    } else {
      var init := b[..|b| - 1];
      var e := b[|b| - 1];
      assert b == init + [e];
      assert StrKeysDistinct(init);
      PushAllLayout(a, init);
      if e.key.IntKey? {
        MergeStepInt(a, init, e);
      } else if IndexOf(a, e.key).Some? {
        MergeStepOverwrite(a, init, e, IndexOf(a, e.key).value);
      } else {
        assert IndexOf(init, e.key).None?;
        MergeStepAppend(a, init, e);
      }
    }
  }

  /** The whole result of `array_merge`: the first array's entries in place, with
      `b`'s value over each string key `b` also binds, then `b`'s integer-keyed
      entries and new string keys in `b`'s order; integer keys are renumbered
      0, 1, 2, … across the whole. */
  lemma ArrayMergeLayout(a: PhpArray, b: PhpArray)
    requires StrKeysDistinct(a) && StrKeysDistinct(b)
    ensures ArrayMerge(a, b) == Renumber(Overwrite(a, b) + Fresh(a, b))
  {
    PushAllIntoEmpty(a);
    PushAllLayout(a, b);
  }
}

=== FILE: php_values.dfy ===
/** PHP scalar values and the three conversions the database layer relies on:
    `empty()` on an array element, the string a value turns into when it is
    concatenated, and the `(int)` cast of a string (used on SQLSTATE codes). */
module PhpValues {

  datatype Option<+T> = None | Some(value: T)

  /** A PHP scalar as it appears in a configuration array or a bound parameter.
      Floats, arrays and objects are not modelled. */
  datatype PhpValue = Null | Bool(b: bool) | Int(i: int) | Str(s: string)

  /** PHP's conversion of a scalar to bool. */
  predicate Truthy(v: PhpValue) {
    match v
    case Null => false
    case Bool(b) => b
    case Int(i) => i != 0
    case Str(s) => s != "" && s != "0"
  }

  /** `empty($array[$key])`, where `None` stands for an absent key. */
  predicate Empty(v: Option<PhpValue>) {
    v.None? || !Truthy(v.value)
  }

  /** The values `empty()` calls empty are exactly: absent, null, false, 0, '' and '0'. */
  lemma EmptyExactly(v: Option<PhpValue>)
    ensures Empty(v) <==>
      (v == None || v == Some(Null) || v == Some(Bool(false)) || v == Some(Int(0))
       || v == Some(Str("")) || v == Some(Str("0")))
  {
  }

  // ---------------------------------------------------------------------------
  // Decimal digits

  predicate IsDigit(c: char) {
    '0' <= c <= '9'
  }

  predicate AllDigits(s: string) {
    forall k :: 0 <= k < |s| ==> IsDigit(s[k])
  }

  function DigitValue(c: char): (d: nat)
    requires IsDigit(c)
    ensures d < 10
  {
    (c as int) - ('0' as int)
  }

  function DigitChar(d: nat): (c: char)
    requires d < 10
    ensures IsDigit(c) && DigitValue(c) == d
  {
    (('0' as int) + d) as char
  }

  /** The value of a string of decimal digits, most significant first. */
  function DigitsValue(ds: string): nat
    requires AllDigits(ds)
    decreases |ds|
  {
    if ds == [] then 0 else DigitsValue(ds[..|ds| - 1]) * 10 + DigitValue(ds[|ds| - 1])
  }

  /** The decimal spelling PHP gives a non-negative integer. */
  function NatString(n: nat): (s: string)
    ensures |s| > 0 && AllDigits(s)
    decreases n
  {
    if n < 10 then [DigitChar(n)] else NatString(n / 10) + [DigitChar(n % 10)]
  }

  /** The decimal spelling PHP gives an integer: a minus sign for negative values. */
  function DecimalString(i: int): (s: string)
    ensures |s| > 0 && (s[0] == '-' || IsDigit(s[0]))
  {
    if i < 0 then "-" + NatString(-i) else NatString(i)
  }

  /** The string a scalar becomes when it is concatenated into a string. */
  function ToPhpString(v: PhpValue): string {
    match v
    case Null => ""
    case Bool(b) => if b then "1" else ""
    case Int(i) => DecimalString(i)
    case Str(s) => s
  }

  // ---------------------------------------------------------------------------
  // The (int) cast of a string

  /** The characters PHP skips before a numeric prefix. */
  predicate IsSpace(c: char) {
    c == ' ' || c == '\t' || c == '\n' || c == '\r' || (c as int) == 11 || (c as int) == 12
  }

  function TrimLeadingSpace(s: string): (t: string)
    ensures |t| <= |s| && t == s[|s| - |t|..]
    ensures t == [] || !IsSpace(t[0])
  {
    if s != [] && IsSpace(s[0]) then TrimLeadingSpace(s[1..]) else s
  }

  /** The longest prefix of `s` made of digits. */
  function LeadingDigits(s: string): (d: string)
    ensures AllDigits(d) && |d| <= |s| && d == s[..|d|]
    ensures |d| < |s| ==> !IsDigit(s[|d|])
  {
    if s != [] && IsDigit(s[0]) then [s[0]] + LeadingDigits(s[1..]) else []
  }

  /** The digit run an `(int)` cast reads: after leading white space and an optional sign. */
  function CastDigits(s: string): (d: string)
    ensures AllDigits(d)
  {
    var t := TrimLeadingSpace(s);
    if t != [] && (t[0] == '-' || t[0] == '+') then LeadingDigits(t[1..]) else LeadingDigits(t)
  }

  predicate CastNegative(s: string) {
    var t := TrimLeadingSpace(s);
    t != [] && t[0] == '-'
  }

  /** PHP's `(int)$s`: the leading integer of the string, or 0 when there is none. */
  function IntCast(s: string): int {
    var n: int := DigitsValue(CastDigits(s));
    if CastNegative(s) then -n else n
  }

  // ---------------------------------------------------------------------------
  // Properties of the cast

  lemma {:induction false} DigitsValueZero(ds: string)
    requires AllDigits(ds)
    ensures DigitsValue(ds) == 0 <==> forall k :: 0 <= k < |ds| ==> ds[k] == '0'
    decreases |ds|
  {
    if ds != [] {
      var init := ds[..|ds| - 1];
      DigitsValueZero(init);
      assert forall k :: 0 <= k < |init| ==> init[k] == ds[k];
    }
  }

  /** The cast is zero exactly when the digit run it reads is empty or all zeros. */
  lemma IntCastZero(s: string)
    ensures IntCast(s) == 0 <==> forall k :: 0 <= k < |CastDigits(s)| ==> CastDigits(s)[k] == '0'
  {
    DigitsValueZero(CastDigits(s));
  }

  /** A string that starts with a letter (the usual SQLSTATE class such as "HY") casts to 0. */
  lemma IntCastLetterStart(s: string)
    requires s != [] && !IsDigit(s[0]) && !IsSpace(s[0]) && s[0] != '-' && s[0] != '+'
    ensures IntCast(s) == 0
  {
    assert TrimLeadingSpace(s) == s;
  }

  lemma LeadingDigitsOfDigits(s: string)
    requires AllDigits(s)
    ensures LeadingDigits(s) == s
  {
  }

  /** A string of digits only casts to its decimal value. */
  lemma IntCastDigits(s: string)
    requires s != [] && AllDigits(s)
    ensures IntCast(s) == DigitsValue(s)
  {
    assert IsDigit(s[0]) && !IsSpace(s[0]);
    assert TrimLeadingSpace(s) == s;
    assert !CastNegative(s);
    LeadingDigitsOfDigits(s);
    assert CastDigits(s) == s;
  }

  lemma {:induction false} NatStringValue(n: nat)
    ensures DigitsValue(NatString(n)) == n
    decreases n
  {
    if n >= 10 {
      NatStringValue(n / 10);
      var s := NatString(n);
      assert s[..|s| - 1] == NatString(n / 10);
    }
  }

  /** The cast reads a decimal spelling as its sign and the spelling of its magnitude. */
  lemma CastOfDecimalString(i: int)
    ensures CastNegative(DecimalString(i)) <==> i < 0
    ensures CastDigits(DecimalString(i)) == NatString(if i < 0 then -i else i)
  {
    var s := DecimalString(i);
    assert TrimLeadingSpace(s) == s;
    if i < 0 {
      assert s[1..] == NatString(-i);
      LeadingDigitsOfDigits(NatString(-i));
    } else {
      LeadingDigitsOfDigits(s);
    }
  }

  /** The cast inverts PHP's decimal spelling of an integer. */
  lemma IntCastRoundTrip(i: int)
    ensures IntCast(DecimalString(i)) == i
  {
    CastOfDecimalString(i);
    NatStringValue(if i < 0 then -i else i);
  }

  /** A run of zeros casts to 0. */
  lemma ZerosCast(s: string)
    requires s != [] && forall k :: 0 <= k < |s| ==> s[k] == '0'
    ensures IntCast(s) == 0
  {
    assert AllDigits(s);
    IntCastDigits(s);
    DigitsValueZero(s);
  }

  /** The SQLSTATE codes that decide the SQLite failure policy: the generic
      "HY000" and the success code "00000" cast to 0, an integrity violation does not. */
  lemma SqlStateGenericCast()
    ensures IntCast("HY000") == 0
  {
    IntCastLetterStart("HY000");
  }

  lemma SqlStateSuccessCast()
    ensures IntCast("00000") == 0
  {
    ZerosCast("00000");
  }

  lemma DigitsValueSnoc(ds: string, c: char)
    requires AllDigits(ds) && IsDigit(c)
    ensures DigitsValue(ds + [c]) == DigitsValue(ds) * 10 + DigitValue(c)
  {
    assert (ds + [c])[..|ds|] == ds;
  }

  /** The value of a five-digit string, digit by digit. */
  lemma FiveDigitsValue(a: char, b: char, c: char, d: char, e: char)
    requires IsDigit(a) && IsDigit(b) && IsDigit(c) && IsDigit(d) && IsDigit(e)
    ensures DigitsValue([a, b, c, d, e])
         == (((DigitValue(a) * 10 + DigitValue(b)) * 10 + DigitValue(c)) * 10 + DigitValue(d)) * 10 + DigitValue(e)
  {
    assert [a] == [] + [a];
    DigitsValueSnoc([], a);
    var v1 := DigitsValue([a]);
    assert [a, b] == [a] + [b];
    DigitsValueSnoc([a], b);
    var v2 := DigitsValue([a, b]);
    assert v2 == v1 * 10 + DigitValue(b);
    assert [a, b, c] == [a, b] + [c];
    DigitsValueSnoc([a, b], c);
    var v3 := DigitsValue([a, b, c]);
    assert v3 == v2 * 10 + DigitValue(c);
    assert [a, b, c, d] == [a, b, c] + [d];
    DigitsValueSnoc([a, b, c], d);
    var v4 := DigitsValue([a, b, c, d]);
    assert v4 == v3 * 10 + DigitValue(d);
    assert [a, b, c, d, e] == [a, b, c, d] + [e];
    DigitsValueSnoc([a, b, c, d], e);
  }

  lemma SqlStateIntegrityCast()
    ensures IntCast("23000") == 23000
  {
    assert "23000" == ['2', '3', '0', '0', '0'];
    IntCastDigits("23000");
    FiveDigitsValue('2', '3', '0', '0', '0');
  }

  lemma LeadingDigitsCons(c: char, rest: string)
    ensures LeadingDigits([c] + rest) == if IsDigit(c) then [c] + LeadingDigits(rest) else []
  {
    assert ([c] + rest)[0] == c && ([c] + rest)[1..] == rest;
  }

  lemma TwoDigitPrefixDigits(a: char, b: char, c: char, rest: string)
    requires IsDigit(a) && IsDigit(b) && !IsDigit(c)
    ensures CastDigits([a, b, c] + rest) == [a, b] && !CastNegative([a, b, c] + rest)
  {
    var s3 := [c] + rest;
    var s2 := [b] + s3;
    var s := [a] + s2;
    assert [a, b, c] + rest == s;
    LeadingDigitsCons(c, rest);
    LeadingDigitsCons(b, s3);
    LeadingDigitsCons(a, s2);
    assert s[0] == a && !IsSpace(a);
    assert TrimLeadingSpace(s) == s;
  }

  /** Two digits followed by a non-digit: the cast reads just the two digits. */
  lemma TwoDigitPrefixCast(a: char, b: char, c: char, rest: string)
    requires IsDigit(a) && IsDigit(b) && !IsDigit(c)
    ensures IntCast([a, b, c] + rest) == DigitValue(a) * 10 + DigitValue(b)
  {
    TwoDigitPrefixDigits(a, b, c, rest);
    assert [a] == [] + [a] && [a, b] == [a] + [b];
    DigitsValueSnoc([], a);
    DigitsValueSnoc([a], b);
  }

  lemma SqlStatePrefixCast()
    ensures IntCast("42S02") == 42
  {
    assert "42S02" == ['4', '2', 'S'] + "02";
    TwoDigitPrefixCast('4', '2', 'S', "02");
  }
}

=== FILE: queries.dfy ===
/** `Query` and `QueryAddon`: a SQL fragment paired with its bound parameters.
    Attaching an addon appends the addon's SQL padded with one space on each
    side and merges the parameter arrays with PHP's `array_merge`. */
module Queries {
  import opened PhpValues
  import opened PhpArrays

  /** Bound parameters: a PHP array of scalars, by name or by position. */
  type Params = PhpArray

  datatype QueryAddon = QueryAddon(str: string, data: Params)

  datatype Query = Query(str: string, data: Params)

  /** A freshly constructed Query: both fields at their declared defaults. */
  const NewQuery: Query := Query("", [])

  /** `$query->attach($addon)`. */
  function Attach(q: Query, addon: QueryAddon): (r: Query)
    ensures |r.str| == |q.str| + |addon.str| + 2
    ensures r.str[..|q.str|] == q.str
    ensures r.str[|q.str|] == ' ' && r.str[|r.str| - 1] == ' '
    ensures r.str[|q.str| + 1..|r.str| - 1] == addon.str
    ensures Packed(r.data) && KeysDistinct(r.data)
    ensures IntValues(r.data) == IntValues(q.data) + IntValues(addon.data)
  {
    ArrayMergeShape(q.data, addon.data);
    ArrayMergeIntValues(q.data, addon.data);
    Query(q.str + " " + addon.str + " ", ArrayMerge(q.data, addon.data))
  }

  /** After attaching, every string key of either side is present and the addon's value wins. */
  lemma AttachStringKeys(q: Query, addon: QueryAddon, s: string)
    ensures Get(Attach(q, addon).data, StrKey(s)) ==
      if Get(addon.data, StrKey(s)).Some? then Get(addon.data, StrKey(s)) else Get(q.data, StrKey(s))
  {
    ArrayMergeStringKeys(q.data, addon.data, s);
  }

  /** The old entries stay at the front of the data: a string-keyed entry keeps its
      place (taking the addon's value on a clash), an integer-keyed one keeps its
      value under its rank among the integer keys. */
  lemma AttachKeepsPositions(q: Query, addon: QueryAddon)
    requires StrKeysDistinct(q.data)
    ensures var d := Attach(q, addon).data;
      && |q.data| <= |d|
      && (forall i :: 0 <= i < |q.data| && q.data[i].key.StrKey? ==>
            d[i].key == q.data[i].key
            && d[i].value == if Get(addon.data, q.data[i].key).Some?
                             then Get(addon.data, q.data[i].key).value else q.data[i].value)
      && (forall i :: 0 <= i < |q.data| && q.data[i].key.IntKey? ==>
            d[i] == Entry(IntKey(IntCount(q.data[..i])), q.data[i].value))
  {
    ArrayMergePositions(q.data, addon.data);
  }

  /** When the addon binds no name the query already binds, its entries follow the
      query's in the addon's order, with integer keys renumbered across both. */
  lemma AttachDisjoint(q: Query, addon: QueryAddon)
    requires StrKeysDistinct(q.data + addon.data)
    ensures Attach(q, addon).data == Renumber(q.data + addon.data)
  {
    ArrayMergeDisjoint(q.data, addon.data);
  }

  /** The merged data in full: the query's parameters in place, a name the addon
      also binds taking the addon's value, then the addon's positional values and
      new names in the addon's order, positional keys renumbered across both. */
  lemma AttachLayout(q: Query, addon: QueryAddon)
    requires StrKeysDistinct(q.data) && StrKeysDistinct(addon.data)
    ensures Attach(q, addon).data == Renumber(Overwrite(q.data, addon.data) + Fresh(q.data, addon.data))
  {
    ArrayMergeLayout(q.data, addon.data);
  }

  /** Attaching an empty addon adds two spaces and, once the data is packed (as it
      is for every query built from a fresh one), leaves the data unchanged. */
  lemma AttachEmptyAddon(q: Query)
    requires Packed(q.data) && StrKeysDistinct(q.data)
    ensures Attach(q, QueryAddon("", [])) == Query(q.str + "  ", q.data)
  {
    ArrayMergeEmptyRight(q.data);
  }

  // ---------------------------------------------------------------------------
  // Attaching a list of addons in order

  function AttachAll(q: Query, addons: seq<QueryAddon>): Query
    decreases |addons|
  {
    if addons == [] then q else Attach(AttachAll(q, addons[..|addons| - 1]), addons[|addons| - 1])
  }

  /** The SQL fragments of the addons, joined by `sep`. */
  function Join(addons: seq<QueryAddon>, sep: string): string
    requires addons != []
    decreases |addons|
  {
    if |addons| == 1 then addons[0].str
    else Join(addons[..|addons| - 1], sep) + sep + addons[|addons| - 1].str
  }

  /** The value the last addon that has string key `s` gives it. */
  function LastValue(addons: seq<QueryAddon>, s: string): Option<PhpValue>
    decreases |addons|
  {
    if addons == [] then None
    else if Get(addons[|addons| - 1].data, StrKey(s)).Some? then Get(addons[|addons| - 1].data, StrKey(s))
    else LastValue(addons[..|addons| - 1], s)
  }

  /** All integer-keyed parameter values of the addons, in order. */
  function AllIntValues(addons: seq<QueryAddon>): seq<PhpValue>
    decreases |addons|
  {
    if addons == [] then [] else AllIntValues(addons[..|addons| - 1]) + IntValues(addons[|addons| - 1].data)
  }

  lemma Padding(j: string, s: string)
    ensures " " + j + " " + " " + s + " " == " " + (j + "  " + s) + " "
  {
    assert "  " == " " + " ";
  }

  /** Attaching s1 … sn to a fresh Query yields " s1  s2  …  sn ". */
  lemma {:induction false} AttachAllString(addons: seq<QueryAddon>)
    requires addons != []
    ensures AttachAll(NewQuery, addons).str == " " + Join(addons, "  ") + " "
    decreases |addons|
  {
    var last := addons[|addons| - 1];
    if |addons| == 1 {
      assert AttachAll(NewQuery, addons) == Attach(NewQuery, last);
    } else {
      var init := addons[..|addons| - 1];
      AttachAllString(init);
      var j := Join(init, "  ");
      assert AttachAll(NewQuery, addons).str == " " + j + " " + " " + last.str + " ";
      Padding(j, last.str);
    }
  }

  /** Attaching addons to a fresh Query merges their data left to right: later
      addons win on a string key, integer-keyed values are all kept in order, and
      the result is a packed array without repeated keys. */
  lemma {:induction false} AttachAllData(addons: seq<QueryAddon>)
    ensures var d := AttachAll(NewQuery, addons).data;
      && Packed(d) && KeysDistinct(d)
      && IntValues(d) == AllIntValues(addons)
      && forall s :: Get(d, StrKey(s)) == LastValue(addons, s)
    decreases |addons|
  {
    if addons != [] {
      var init := addons[..|addons| - 1];
      var q := AttachAll(NewQuery, init);
      AttachAllData(init);
      forall s ensures Get(AttachAll(NewQuery, addons).data, StrKey(s)) == LastValue(addons, s) {
        AttachStringKeys(q, addons[|addons| - 1], s);
      }
    }
  }
}

=== FILE: runs.dfy ===
/** Sequences of public calls on one session. Each call may raise; the caller is
    assumed to catch the exception and go on, so a run keeps every effect a call
    made before it raised. These lemmas are the session-level promises: what
    `getLastQuery` returns, what the audit list and the observer counters hold. */
module Runs {
  import opened PhpValues
  import opened PhpArrays
  import opened Queries
  import opened Drivers
  import opened Database
  import Obs = DatabaseObserver

  datatype Call =
    | ReadCall(sql: string, data: Option<Params>, oracle: Oracle)
    | WriteCall(query: Query, oracle: Oracle)
    | BeginCall
    | CommitCall
    | RollbackCall

  datatype State = State(session: Session, globals: Globals)

  function Apply(st: State, c: Call, defaultType: string): State {
    match c
    case ReadCall(sql, data, o) =>
      var r := Read(st.session, st.globals, sql, data, o, defaultType);
      State(r.session, r.globals)
    case WriteCall(q, o) =>
      var r := Write(st.session, st.globals, q, o, defaultType);
      State(r.session, r.globals)
    case BeginCall => st.(session := BeginTransaction(st.session))
    case CommitCall => st.(session := Commit(st.session))
    case RollbackCall => st.(session := Rollback(st.session))
  }

  function Run(st: State, calls: seq<Call>, defaultType: string): State
    decreases |calls|
  {
    if calls == [] then st else Apply(Run(st, calls[..|calls| - 1], defaultType), calls[|calls| - 1], defaultType)
  }

  // ---------------------------------------------------------------------------
  // What a run of calls should leave behind

  /** The SQL a call sends, if it sends any. */
  function CallSql(c: Call): seq<string> {
    match c
    case ReadCall(sql, _, _) => [sql]
    case WriteCall(q, _) => [q.str]
    case _ => []
  }

  /** The audit record a call should add, if any. */
  function CallRecord(c: Call): seq<QueryRecord> {
    match c
    case ReadCall(sql, data, _) => [QueryRecord(sql, data)]
    case WriteCall(q, _) => [QueryRecord(q.str, Some(q.data))]
    case _ => []
  }

  /** The SQL each read or write sends, in order. */
  function Sqls(calls: seq<Call>): seq<string>
    decreases |calls|
  {
    if calls == [] then [] else Sqls(calls[..|calls| - 1]) + CallSql(calls[|calls| - 1])
  }

  /** The audit records the reads and writes should add, in order. */
  function Records(calls: seq<Call>): seq<QueryRecord>
    decreases |calls|
  {
    if calls == [] then [] else Records(calls[..|calls| - 1]) + CallRecord(calls[|calls| - 1])
  }

  function CountReads(calls: seq<Call>): nat
    decreases |calls|
  {
    if calls == [] then 0 else CountReads(calls[..|calls| - 1]) + (if calls[|calls| - 1].ReadCall? then 1 else 0)
  }

  function CountWrites(calls: seq<Call>): nat
    decreases |calls|
  {
    if calls == [] then 0 else CountWrites(calls[..|calls| - 1]) + (if calls[|calls| - 1].WriteCall? then 1 else 0)
  }

  /** The SQL of the last read or write, or `initial` if there was none. */
  function LastSql(calls: seq<Call>, initial: string): string {
    var sqls := Sqls(calls);
    if sqls == [] then initial else sqls[|sqls| - 1]
  }

  // ---------------------------------------------------------------------------
  // Lemmas

  lemma ApplyAudit(st: State, c: Call, defaultType: string)
    ensures Apply(st, c, defaultType).globals.queries == st.globals.queries + CallRecord(c)
  {
  }

  lemma ApplyKeepsShape(st: State, c: Call, defaultType: string)
    ensures var s := Apply(st, c, defaultType).session;
      && s.driver == st.session.driver
      && s.observers == st.session.observers
      && s.connection.request == st.session.connection.request
      && s.driverName == st.session.driverName
  {
  }

  lemma ApplyLastQuery(st: State, c: Call, defaultType: string)
    ensures GetLastQuery(Apply(st, c, defaultType).session) ==
      if st.session.driver == Sqlite || CallSql(c) == [] then GetLastQuery(st.session) else CallSql(c)[0]
  {
  }

  /** Every read and write adds exactly one `{string, data}` record to the audit
      list, whatever PDO does and on every driver. */
  lemma {:induction false} RunAuditList(st: State, calls: seq<Call>, defaultType: string)
    ensures Run(st, calls, defaultType).globals.queries == st.globals.queries + Records(calls)
    decreases |calls|
  {
    if calls != [] {
      var init := calls[..|calls| - 1];
      RunAuditList(st, init, defaultType);
      ApplyAudit(Run(st, init, defaultType), calls[|calls| - 1], defaultType);
    }
  }

  /** A run never changes the driver, the connection request or the observers. */
  lemma {:induction false} RunKeepsSessionShape(st: State, calls: seq<Call>, defaultType: string)
    ensures var s := Run(st, calls, defaultType).session;
      && s.driver == st.session.driver
      && s.observers == st.session.observers
      && s.connection.request == st.session.connection.request
      && s.driverName == st.session.driverName
    decreases |calls|
  {
    if calls != [] {
      var init := calls[..|calls| - 1];
      RunKeepsSessionShape(st, init, defaultType);
      ApplyKeepsShape(Run(st, init, defaultType), calls[|calls| - 1], defaultType);
    }
  }

  /** On the MySQL, PostgreSQL and MSSQL drivers `getLastQuery()` returns the SQL of
      the most recent read or write (raised or not); on SQLite it never changes. */
  lemma {:induction false} RunLastQuery(st: State, calls: seq<Call>, defaultType: string)
    ensures var s := Run(st, calls, defaultType).session;
      GetLastQuery(s) == if st.session.driver == Sqlite then GetLastQuery(st.session)
                         else LastSql(calls, GetLastQuery(st.session))
    decreases |calls|
  {
    if calls != [] {
      var init := calls[..|calls| - 1];
      var c := calls[|calls| - 1];
      RunLastQuery(st, init, defaultType);
      RunKeepsSessionShape(st, init, defaultType);
      ApplyLastQuery(Run(st, init, defaultType), c, defaultType);
      assert Sqls(calls) == Sqls(init) + CallSql(c);
    }
  }

  /** What one call does to the counters of a base-driver session with one observer. */
  lemma ApplyMetricsBase(st: State, c: Call, defaultType: string)
    requires st.session.observers == 1 && st.session.driver != Sqlite
    ensures var m := Apply(st, c, defaultType).globals.metrics;
      var m0 := st.globals.metrics;
      && m.selectCount == m0.selectCount + (if c.ReadCall? then 1 else 0)
      && m.readCount == m0.readCount + (if c.ReadCall? then 1 else 0)
      && m.writeCount == m0.writeCount + (if c.WriteCall? then 1 else 0)
      && m.queryCount == m0.queryCount + |CallSql(c)|
      && m.queryList == m0.queryList + CallSql(c)
      && m.insertCount == m0.insertCount && m.updateCount == m0.updateCount && m.deleteCount == m0.deleteCount
  {
  }

  /** With the one observer a session gets at construction, a run on a base driver
      counts one SELECT per read, one WRITE per write, one QUERY per read or write,
      and logs exactly the SQL sent, in order. */
  lemma {:induction false} RunMetricsBase(st: State, calls: seq<Call>, defaultType: string)
    requires st.session.observers == 1 && st.session.driver != Sqlite
    ensures var m := Run(st, calls, defaultType).globals.metrics;
      var m0 := st.globals.metrics;
      && m.selectCount == m0.selectCount + CountReads(calls)
      && m.readCount == m0.readCount + CountReads(calls)
      && m.writeCount == m0.writeCount + CountWrites(calls)
      && m.queryCount == m0.queryCount + |Sqls(calls)|
      && m.queryList == m0.queryList + Sqls(calls)
      && m.insertCount == m0.insertCount && m.updateCount == m0.updateCount && m.deleteCount == m0.deleteCount
    decreases |calls|
  {
    if calls != [] {
      var init := calls[..|calls| - 1];
      var mid := Run(st, init, defaultType);
      RunMetricsBase(st, init, defaultType);
      RunKeepsSessionShape(st, init, defaultType);
      ApplyMetricsBase(mid, calls[|calls| - 1], defaultType);
    }
  }

  /** On SQLite (when its bare `notify()` carries no counted type) the QUERY counter
      and the query log never move; reads and writes are still counted. */
  lemma {:induction false} RunMetricsSqlite(st: State, calls: seq<Call>, defaultType: string)
    requires st.session.observers == 1 && st.session.driver == Sqlite
    requires defaultType !in Obs.CountedTypes
    ensures var m := Run(st, calls, defaultType).globals.metrics;
      var m0 := st.globals.metrics;
      && m.selectCount == m0.selectCount + CountReads(calls)
      && m.readCount == m0.readCount + CountReads(calls)
      && m.writeCount == m0.writeCount + CountWrites(calls)
      && m.queryCount == m0.queryCount
      && m.queryList == m0.queryList
      && m.insertCount == m0.insertCount && m.updateCount == m0.updateCount && m.deleteCount == m0.deleteCount
    decreases |calls|
  {
    if calls != [] {
      RunMetricsSqlite(st, calls[..|calls| - 1], defaultType);
      RunKeepsSessionShape(st, calls[..|calls| - 1], defaultType);
    }
  }

  lemma ApplyKeepsConsistent(st: State, c: Call, defaultType: string)
    requires Obs.Consistent(st.globals.metrics)
    ensures Obs.Consistent(Apply(st, c, defaultType).globals.metrics)
    ensures Obs.Grows(st.globals.metrics, Apply(st, c, defaultType).globals.metrics)
  {
    var s := st.session;
    var g := st.globals;
    match c
    case ReadCall(sql, data, o) =>
      NotifyKeepsConsistent(s, g, Obs.SELECT);
      DriverQueryKeepsConsistent(s, Notify(s, g, Obs.SELECT), sql, data, o, defaultType);
    case WriteCall(q, o) =>
      NotifyKeepsConsistent(s, g, Obs.WRITE);
      DriverQueryKeepsConsistent(s, Notify(s, g, Obs.WRITE), q.str, Some(q.data), o, defaultType);
    case _ =>
  }

  lemma NotifyKeepsConsistent(s: Session, g: Globals, t: string)
    requires Obs.Consistent(g.metrics)
    ensures Obs.Consistent(Notify(s, g, t).metrics) && Obs.Grows(g.metrics, Notify(s, g, t).metrics)
  {
    UpdateTimesKeepsConsistent(g.metrics, Obs.DatabaseSession(s.lastQuery), t, s.observers);
  }

  lemma DriverQueryKeepsConsistent(s: Session, g: Globals, sql: string, data: Option<Params>, o: Oracle, defaultType: string)
    requires Obs.Consistent(g.metrics)
    ensures var m := DriverQuery(s, g, sql, data, o, defaultType).globals.metrics;
      Obs.Consistent(m) && Obs.Grows(g.metrics, m)
  {
    var g1 := g.(queries := g.queries + [QueryRecord(sql, data)]);
    if s.driver == Sqlite {
      if o.prepare.Prepared? {
        NotifyKeepsConsistent(s.(statement := Some(o.prepare.stmt)), g1, defaultType);
      }
    } else {
      NotifyKeepsConsistent(s.(lastQuery := sql), g1, Obs.QUERY);
    }
  }

  /** Whatever the drivers, observers and PDO outcomes, a run keeps readCount equal
      to selectCount and the log as long as queryCount, and never decreases a counter. */
  lemma {:induction false} RunKeepsConsistent(st: State, calls: seq<Call>, defaultType: string)
    requires Obs.Consistent(st.globals.metrics)
    ensures Obs.Consistent(Run(st, calls, defaultType).globals.metrics)
    ensures Obs.Grows(st.globals.metrics, Run(st, calls, defaultType).globals.metrics)
    decreases |calls|
  {
    if calls != [] {
      var mid := Run(st, calls[..|calls| - 1], defaultType);
      RunKeepsConsistent(st, calls[..|calls| - 1], defaultType);
      ApplyKeepsConsistent(mid, calls[|calls| - 1], defaultType);
    }
  }

  /** A freshly constructed base-driver session: `getLastQuery()` is '' until the
      first read or write, then the SQL of the latest one. */
  lemma FreshSessionLastQuery(d: Driver, config: Config, loaded: set<string>, g: Globals, calls: seq<Call>, defaultType: string)
    requires Construct(d, config, loaded, true).result.Created?
    ensures var s := Construct(d, config, loaded, true).result.session;
      GetLastQuery(Run(State(s, g), calls, defaultType).session) == if d == Sqlite then "" else LastSql(calls, "")
  {
    RunLastQuery(State(Construct(d, config, loaded, true).result.session, g), calls, defaultType);
  }
}
